=== FILE: README.md ===
# Vision assistance: upload pipeline and detection data path, in Dafny

This project models the two sequential cores of the vision-assistance system
and proves properties of them.

1. **The Java upload-and-convert pipeline.** `ProcessingService` saves an
   uploaded image and audio clip under UUID-based names. It stores the audio a
   second time as a raw `.webm`, runs `ffmpeg` to turn that file into a
   `.wav`, deletes the `.webm` on success, and answers with two URLs.
   `ProcessController.processFiles` wraps the service. It rejects empty uploads
   with code 1001, answers success with 200, and answers a checked failure
   with 500 and code 1002.
2. **The Python detection data path.** The detection loop in `main_app.py`
   does four things:
   - it classifies the vehicle count into an alert level;
   - it serialises detections that arrive either as dicts or as objects;
   - it centre-crops every frame to the 544 by 960 target;
   - it publishes per-frame statistics.

   `server2vue.py` keeps the record the loop feeds through its bridge
   callback. It serves that record on `/api/detections` and reads and writes
   the loop's thresholds on `/api/config`.

Modules:

- `results.dfy` (`Results`): `Option` and `Result`.
- `files.dfy` (`Files`): the local filesystem as an immutable value.
  - Files are a `map<Path, Bytes>` and directories are a set of paths. A
    `Valid` invariant keeps the tree closed under parents.
  - Each `java.nio.file.Files` call the service makes (`exists`,
    `createDirectories`, `copy`, `deleteIfExists`) is a pure function that
    returns the new filesystem or the `IOException` it throws. So is
    `MultipartFile.transferTo`.
  - `Path.resolve` splits a name on `/` (POSIX paths); an absolute name
    starts again from the root, and `saveFile` refuses a name holding a NUL
    character as `resolve` does. `Path.toString` joins the segments with `/`.
- `processing_service.dfy` (`ProcessingService`): `saveFile`,
  `saveAndConvertAudioFile` and `processMedia`.
  - Each operation threads the filesystem through.
  - The three UUIDs of a request are parameters.
  - `ffmpeg` is an oracle from the argument list to what the process did:
    it could not start, the wait for its exit code was interrupted, or it
    exited with a code. In the last two cases it may have written its output.
- `process_controller.dfy` (`ProcessController`): `processFiles` and the
  mapping of outcomes onto HTTP status, API code and message.
- `main_app.dfy` (`MainApp`): the alert level, detection serialisation, crop
  offsets and the crop itself, `_set_stats`, and one pass of the main loop
  after detection.
- `server2vue.dfy` (`Server2Vue`): the `detection_data` record,
  `update_detection_data`, `get_detections`, `bridge_callback` and
  `config` GET and POST.

### Behaviour of note

- **File names without a dot.** `saveFile` calls
  `substring(lastIndexOf("."))` on a non-null name, so a name without a dot
  throws `StringIndexOutOfBoundsException` instead of getting an empty
  extension. That exception is unchecked, so it escapes `processFiles`
  without an API body. See `Extension`, `SaveFileNoDot` and
  `DotlessNameEscapes`.
- **NUL in a file name.** `uploadPath.resolve(uniqueFilename)` throws the
  unchecked `InvalidPathException` when the extension taken from the client
  name holds a NUL character. It too escapes `processFiles` without an API
  body, after the directory was made and before any file is written. See
  `SaveFileNulName`, `ProcessMediaNulName` and `NulNameEscapes`.
- **The `.webm` directory.** `saveAndConvertAudioFile` ignores the
  configured upload directory and always writes below `uploads/` in the
  working directory. With the default setting the two coincide
  (`DefaultConfigSharesAudioDir`).
- **`alert_triggered`.** It starts as the boolean `False`. It then holds
  the integer alert level, because that is what the bridge passes.

## Model

| member | source | states |
|---|---|---|
| Files.DirectoryAncestors | backEndTest/src/main/java/backEndTest/Service/ProcessingService.java:68-71 | Every ancestor of an existing directory in a valid tree is a directory, and no regular file lies on its chain. |
| Files.CreateDirectories | backEndTest/src/main/java/backEndTest/Service/ProcessingService.java:69-71 | `createDirectories` succeeds exactly when no prefix of the path is a regular file. It adds the path and all its ancestors as directories, leaves files alone and keeps the tree valid. |
| Files.EnsureDirectory | backEndTest/src/main/java/backEndTest/Service/ProcessingService.java:69-71 | When something exists at the path the filesystem is returned unchanged. Otherwise the call succeeds exactly when no regular file lies on the path's chain. In a valid tree it then adds the path's ancestors as directories, and it never touches files. |
| Files.EnsureDirectoryIdempotent | backEndTest/src/main/java/backEndTest/Service/ProcessingService.java:68-71 | Ensuring the same directory twice gives the same filesystem as ensuring it once. |
| Files.CopyNew | backEndTest/src/main/java/backEndTest/Service/ProcessingService.java:79-80 | `Files.copy` without a replace option fails with `FileAlreadyExists` if anything exists at the target. On success the target was absent, now holds the upload's bytes, and every other file and directory is unchanged. The set of files grows by exactly the target. It succeeds whenever the target is absent and its parent is a directory. |
| Files.TransferTo | backEndTest/src/main/java/backEndTest/Service/ProcessingService.java:120 | `MultipartFile.transferTo` writes the bytes at the target, replacing a file already there, and fails on a directory. It leaves every other file unchanged, adds no file but the target, keeps the tree valid, and succeeds whenever the target is not a directory and its parent is one. |
| Files.DeleteIfExists | backEndTest/src/main/java/backEndTest/Service/ProcessingService.java:170 | `deleteIfExists` succeeds exactly when the path is not below a regular file and is missing, a regular file, or an empty directory other than the root. A path below a regular file fails with `NotDirectory`; a non-empty directory or the root fails with `DirectoryNotEmpty`. After success nothing exists at the path, every other file and directory is unchanged, no file appears, and the tree stays valid. |
| Files.DeleteIfExistsIdempotent | backEndTest/src/main/java/backEndTest/Service/ProcessingService.java:170 | Deleting twice is the same as deleting once. |
| Files.Join | backEndTest/src/main/java/backEndTest/Service/ProcessingService.java:79 | Joining a relative name keeps the directory as a prefix and appends only non-empty, slash-free segments. A non-empty name without a slash becomes exactly one new segment. |
| Files.Resolve | backEndTest/src/main/java/backEndTest/Service/ProcessingService.java:79 | A name starting with `/` is resolved from the root, ignoring the directory. Any other name is joined onto the directory. |
| Files.JoinRoundTrip | backEndTest/src/main/java/backEndTest/Service/ProcessingService.java:79 | For a name in normal form (non-empty, no `/` at either end, no `//`), the appended segments written out with `/` between them give the name back. So exactly the name's `/`-separated pieces are appended, in order. |
| Files.ResolveAbsolute | backEndTest/src/main/java/backEndTest/Service/ProcessingService.java:79 | Resolving `/` plus a normal-form name against any directory renders as that absolute name. |
| Files.Render | backEndTest/src/main/java/backEndTest/Service/ProcessingService.java:134-141 | `Path.toString` of an absolute path is non-empty and starts with `/`. |
| Files.RenderIsJoinText | backEndTest/src/main/java/backEndTest/Service/ProcessingService.java:134-141 | The rendered path is `/` followed by the segments joined with `/`, so it is determined by the segments alone. |
| ProcessingService.LastIndexOf | backEndTest/src/main/java/backEndTest/Service/ProcessingService.java:75 | `lastIndexOf` is -1 exactly when the character is absent. Otherwise it is a position holding the character with no occurrence after it. |
| ProcessingService.Extension | backEndTest/src/main/java/backEndTest/Service/ProcessingService.java:74-75 | A `null` name gives `""`. A non-null name yields an extension exactly when it contains a dot, and otherwise fails with `StringIndexOutOfBounds(-1)`. |
| ProcessingService.ExtensionIsLastDotSuffix | backEndTest/src/main/java/backEndTest/Service/ProcessingService.java:75 | The extension is a non-empty suffix of the name that starts with a dot and contains no further dot. |
| ProcessingService.SaveFile | backEndTest/src/main/java/backEndTest/Service/ProcessingService.java:66-84 | On success the returned path is exactly `subDir + "/" + uuid + extension`, nothing (neither file nor directory) existed at the target before, and it now holds the upload's bytes. The stored name holds no NUL. The set of files grows by exactly the target. A failure writes no file. No existing file or directory is lost, and validity is preserved. |
| ProcessingService.SaveFileSucceeds | backEndTest/src/main/java/backEndTest/Service/ProcessingService.java:66-84 | With a plain file name (an extension with no `/` and no NUL), a creatable directory and a free target, `saveFile` succeeds. The result adds exactly that one file at `uploadDir/subDir/uuid+extension` plus the directory chain. |
| ProcessingService.SaveFileRefusesExistingTarget | backEndTest/src/main/java/backEndTest/Service/ProcessingService.java:79-80 | For a name `resolve` accepts (no NUL), an existing target makes `saveFile` fail with `FileAlreadyExists` on that path, and the old contents survive. |
| ProcessingService.SaveFileNulName | backEndTest/src/main/java/backEndTest/Service/ProcessingService.java:74-80 | Once the directory exists and the name has an extension, `saveFile` fails with `InvalidPath` exactly when `uuid + extension` holds a NUL. That failure carries the name, and no file is written. |
| ProcessingService.SaveFileNoDot | backEndTest/src/main/java/backEndTest/Service/ProcessingService.java:74-75 | A non-null name without a dot fails with `StringIndexOutOfBounds(-1)` after the directory was made and before any file is written. |
| ProcessingService.ToolWrite | backEndTest/src/main/java/backEndTest/Service/ProcessingService.java:130-141 | `ffmpeg -y` writes its output path, replacing any file there, and changes nothing else. |
| ProcessingService.SaveAndConvertAudioFile | backEndTest/src/main/java/backEndTest/Service/ProcessingService.java:97-174 | On success the result is `subDir/<uuid>.wav` and the raw `.webm` is gone. Every file other than the `.webm` and the `.wav` is kept, no file other than those two appears, and validity is preserved. |
| ProcessingService.ConvertPathsShareUuid | backEndTest/src/main/java/backEndTest/Service/ProcessingService.java:115-141 | The two paths on the command line render as the absolute `uploads/<subDir>` directory followed by `/<uuid>.webm` and `/<uuid>.wav`. The two files are distinct. |
| ProcessingService.Exception.Message | backEndTest/src/main/java/backEndTest/Service/ProcessingService.java:146-164 | Only an interruption has a `null` message. A filesystem error's message is the path, a tool that cannot start gives `Cannot run program "ffmpeg": ` followed by the reason, and a failed conversion gives `FFmpeg 转换音频失败`. |
| ProcessingService.FfmpegCommand | backEndTest/src/main/java/backEndTest/Service/ProcessingService.java:130-141 | The command has seven arguments: `ffmpeg -y -i`, the input, `-acodec pcm_s16le`, the output. |
| ProcessingService.FfmpegCommandInjective | backEndTest/src/main/java/backEndTest/Service/ProcessingService.java:130-141 | Two commands are equal exactly when their inputs and outputs are, so the tool is told exactly which file to read and which to write. |
| ProcessingService.ConvertRunsExactCommand | backEndTest/src/main/java/backEndTest/Service/ProcessingService.java:130-141 | The tool is consulted only on `[ffmpeg, -y, -i, <input>, -acodec, pcm_s16le, <output>]`: two tools that agree on that list give the same outcome. |
| ProcessingService.ConvertIgnoresFilename | backEndTest/src/main/java/backEndTest/Service/ProcessingService.java:106-116 | The conversion depends on the upload's bytes only, never on the client's file name. |
| ProcessingService.ConvertPrepared | backEndTest/src/main/java/backEndTest/Service/ProcessingService.java:97-120 | When the conversion is ready, making the directory and writing the raw `.webm` both succeed. The upload is then at the raw path, in the same directory as the `.wav` path, which is still free. |
| ProcessingService.ConvertOutcomes | backEndTest/src/main/java/backEndTest/Service/ProcessingService.java:146-173 | A tool that cannot start, an interrupted wait, or a non-zero exit each fail with their own exception and leave the raw `.webm` in place. Exit code 0 deletes it and returns `subDir/<uuid>.wav`. Whatever the tool wrote stays, also when the wait was interrupted. |
| ProcessingService.ConvertSucceedsIffExitZero | backEndTest/src/main/java/backEndTest/Service/ProcessingService.java:146-173 | A ready conversion succeeds exactly when the tool exits with 0. Success answers `subDir/<uuid>.wav` and removes the `.webm`; any failure leaves the `.webm` holding the upload. |
| ProcessingService.ConvertShape | backEndTest/src/main/java/backEndTest/Service/ProcessingService.java:99-116 | The raw `.webm` and the `.wav` are `uploads/<subDir>/<uuid>.webm` and `uploads/<subDir>/<uuid>.wav` below the working directory. |
| ProcessingService.TargetsDistinct | backEndTest/src/main/java/backEndTest/Service/ProcessingService.java:39-41 | The image, the audio copy, the raw `.webm` and the `.wav` of one request are four distinct paths. |
| ProcessingService.ProcessMedia | backEndTest/src/main/java/backEndTest/Service/ProcessingService.java:35-61 | On success the image URL is the fixed constant and the audio URL is `http://localhost:8080/uploads/` plus the wav's relative path, with the `.webm` gone. No earlier file is lost except the two conversion paths, and validity is preserved. |
| ProcessingService.ProcessMediaSaves | backEndTest/src/main/java/backEndTest/Service/ProcessingService.java:39-40 | For a fresh request (see Fresh under Left out) both `saveFile` calls succeed. Between them they add exactly the image and the audio copy, and they leave the conversion ready to run. |
| ProcessingService.ProcessMediaOutcome | backEndTest/src/main/java/backEndTest/Service/ProcessingService.java:35-61 | A fresh request succeeds exactly when the tool exits with 0. On success the answer is the two URLs and the `.webm` is gone; on failure the `.webm` keeps the audio. |
| ProcessingService.ProcessMediaSteps | backEndTest/src/main/java/backEndTest/Service/ProcessingService.java:39-61 | For a fresh request both saves succeed, so the final filesystem is the conversion's. A successful conversion's path is answered with the fixed image URL and the audio URL prefix, and a failed conversion's exception propagates unchanged. |
| ProcessingService.ProcessMediaKeepsUploads | backEndTest/src/main/java/backEndTest/Service/ProcessingService.java:39-41 | Whatever the tool does, the saved image and the first audio copy stay on disk with their bytes: nothing is rolled back. |
| ProcessingService.ProcessMediaFailureCause | backEndTest/src/main/java/backEndTest/Service/ProcessingService.java:146-165 | For a fresh request, the failure is exactly the conversion's: cannot run program, interrupted, or the conversion-failed `IOException`. |
| ProcessingService.ProcessMediaStopsAtFirstFailure | backEndTest/src/main/java/backEndTest/Service/ProcessingService.java:35-61 | For every input, a failed image save is the request's answer and nothing after it runs. A failed audio save is likewise the answer, with the conversion never run. Only when both saves succeed does the conversion run; its filesystem is the request's, and its failure or its `.wav` path decides the answer. |
| ProcessingService.ProcessMediaAudioNoDot | backEndTest/src/main/java/backEndTest/Service/ProcessingService.java:39-41 | A dotless audio name fails the request at the audio save. At most the image has been written, no `.webm` is stored, and the tool is never consulted. Once the image is saved and the audio directory can be made, the failure is `StringIndexOutOfBounds(-1)`. |
| ProcessingService.ProcessMediaNoDot | backEndTest/src/main/java/backEndTest/Service/ProcessingService.java:39 | A dotless image name fails the request with `StringIndexOutOfBounds(-1)` before any file is written. |
| ProcessingService.ProcessMediaNulName | backEndTest/src/main/java/backEndTest/Service/ProcessingService.java:39 | An image name with a NUL in its extension fails the request with `InvalidPath` on the image's stored name before any file is written. |
| ProcessingService.DefaultConfigSharesAudioDir | backEndTest/src/main/java/backEndTest/Service/ProcessingService.java:25-26 | With the default `./uploads` setting, the audio copy and the raw `.webm` share one directory. |
| ProcessController.ProcessFiles | backEndTest/src/main/java/backEndTest/controller/ProcessController.java:23-44 | An empty upload answers 400 with 1001 and `图片或音频文件为空` and leaves the filesystem alone. 200 comes exactly when the service succeeds and wraps its data. 500 carries 1002 and `文件处理失败：` followed by the checked exception's message. Only unchecked exceptions escape. |
| ProcessController.RejectedOrProcessed | backEndTest/src/main/java/backEndTest/controller/ProcessController.java:28-43 | A request is either rejected with 1001 before the service runs, or answered from the service's outcome with 200 or 1002, never both. |
| ProcessController.EndToEnd | backEndTest/src/main/java/backEndTest/controller/ProcessController.java:35-43 | For a fresh non-empty request, the tool's behaviour decides the answer. Exit 0 gives 200 with both URLs. A non-zero exit gives 1002 `FFmpeg 转换音频失败`. A tool that cannot start gives 1002 with its `Cannot run program` message. An interrupted wait gives 1002 ending in `null`. |
| ProcessController.AnswersFailure | backEndTest/src/main/java/backEndTest/controller/ProcessController.java:39-43 | A checked failure of the service becomes 500 with 1002 and the prefixed message. |
| ProcessController.JavaConcat | backEndTest/src/main/java/backEndTest/controller/ProcessController.java:41 | Java's `prefix + e.getMessage()` keeps the prefix and appends the message, or the text `null` when the message is `null`. |
| ProcessController.FailureMessages | backEndTest/src/main/java/backEndTest/controller/ProcessController.java:41 | The messages of the three conversion failures, with `null` for an interruption. |
| ProcessController.NulNameEscapes | backEndTest/src/main/java/backEndTest/controller/ProcessController.java:35-43 | An image name with a NUL in its extension produces no API response: the `InvalidPathException` propagates. |
| ProcessController.DotlessNameEscapes | backEndTest/src/main/java/backEndTest/controller/ProcessController.java:35-43 | A dotless image name produces no API response: the out-of-bounds exception propagates. |
| MainApp.AlertLevel | VehicleDetection_Yolo-Python-Backend/main_app.py:180-186 | The level is 0, 1 or 2: 0 exactly below two vehicles, 1 exactly for two to seven, 2 exactly above seven. |
| MainApp.AlertLevelMonotone | VehicleDetection_Yolo-Python-Backend/main_app.py:180-186 | More vehicles never give a lower level. |
| MainApp.SerializeDetection | VehicleDetection_Yolo-Python-Backend/main_app.py:192-200 | A present confidence is kept. An object without one gets 0. `None`, or a dict without the key, raises `TypeError`. The bbox is the given list or `[]`. The class is the given string, `"unknown"` for an object without one, and `"None"` otherwise. |
| MainApp.SerializeAll | VehicleDetection_Yolo-Python-Backend/main_app.py:189-200 | Serialisation succeeds exactly when every detection serialises. The result then has one entry per detection, in order; otherwise it is a `TypeError`. |
| MainApp.SerializeDetections | VehicleDetection_Yolo-Python-Backend/main_app.py:189-200 | The loop computes `SerializeAll`. It fails exactly when some detection fails, and otherwise yields as many entries as detections. |
| MainApp.CropOffset | VehicleDetection_Yolo-Python-Backend/main_app.py:123-124 | The offset is never negative and is 0 when the frame is not larger than the target. Otherwise the window fits, and the two margins differ by at most one pixel, with the extra one on the far side. |
| MainApp.PySlice | VehicleDetection_Yolo-Python-Backend/main_app.py:125 | A Python slice clips both bounds to the sequence's length. It is the sequence slice between the clipped bounds, or empty when the clipped lower bound exceeds the clipped upper one. So a slice within bounds is exact and an upper bound past the end stops at the end. |
| MainApp.Crop | VehicleDetection_Yolo-Python-Backend/main_app.py:125 | A window that fits inside a rectangular image gives exactly `h` rows of `w` pixels, each pixel read from the image at the window's offsets. |
| MainApp.TransformFrame | VehicleDetection_Yolo-Python-Backend/main_app.py:116-126 | A frame of the target size comes back unchanged. Otherwise a large enough resized frame is cropped to exactly target-height rows of target-width pixels, each taken from the resized frame at the centred offsets. |
| MainApp.FrameStep | VehicleDetection_Yolo-Python-Backend/main_app.py:152-205 | The published count is the number of detections (0 after a detection error, with time 0). The callback fires exactly when one is set and every detection serialises. It then receives the serialised entries (one per detection), the alert level of that count, and the inference time in milliseconds. |
| Server2Vue.UpdateDetectionData | VehicleDetection_Yolo-Python-Backend/server2vue.py:26-36 | After an update the count equals the list length. The detections, alert, processing time and timestamp are stored exactly as passed, and `fps` keeps its value. |
| Server2Vue.GetDetections | VehicleDetection_Yolo-Python-Backend/server2vue.py:38-49 | The endpoint copies the five fields detections, vehicle_count, alert_triggered, processing_time and last_update. |
| Server2Vue.GetDetectionsIgnoresFps | VehicleDetection_Yolo-Python-Backend/server2vue.py:41-48 | The answer does not depend on `fps`. |
| Server2Vue.SnapshotAfterUpdate | VehicleDetection_Yolo-Python-Backend/server2vue.py:26-49 | After an update the endpoint reports that update, and nothing of the earlier record. |
| Server2Vue.UpdateOverwrites | VehicleDetection_Yolo-Python-Backend/server2vue.py:26-36 | The last update wins. |
| Server2Vue.UpdateIdempotent | VehicleDetection_Yolo-Python-Backend/server2vue.py:26-36 | Repeating an update changes nothing. |
| Server2Vue.BridgeCallback | VehicleDetection_Yolo-Python-Backend/server2vue.py:129-130 | After the bridge runs, the record holds the delivered list with its length as the count, the integer alert level, the processing time and the timestamp. `fps` is untouched. |
| Server2Vue.DeliverInvariant | VehicleDetection_Yolo-Python-Backend/server2vue.py:13-36 | Over any run of deliveries the record stays consistent, `fps` is never written, and the last delivery's list and alert are what it holds. |
| Server2Vue.ReachableRecords | VehicleDetection_Yolo-Python-Backend/server2vue.py:13-20 | Every record reachable from the initial one is consistent, with `fps` still 0. |
| Server2Vue.FrameReachesEndpoint | VehicleDetection_Yolo-Python-Backend/server2vue.py:129-130 | A frame whose detections serialise reaches `/api/detections` with the entries the loop emitted, the loop's count, that count's alert level and the inference time in milliseconds. A frame that fails to serialise sends nothing. |
| Server2Vue.ToFloat | VehicleDetection_Yolo-Python-Backend/server2vue.py:95-97 | `float` keeps numbers, maps booleans to 1 and 0, and raises `TypeError` for `null`, lists and objects. A string gives the parsed number, or `ValueError` when it does not parse. |
| Server2Vue.Contains | VehicleDetection_Yolo-Python-Backend/server2vue.py:94-96 | `key in data` is a key test on an object, a membership test on a list, and a substring test on a string. It raises `TypeError` exactly for `null`, booleans and numbers. |
| Server2Vue.IsSubstringOccurs | VehicleDetection_Yolo-Python-Backend/server2vue.py:94-96 | The substring test holds exactly when the key occurs at some position of the string. |
| Server2Vue.ReadSetting | VehicleDetection_Yolo-Python-Backend/server2vue.py:94-97 | An absent key reads as no value and a present key as its `float`. A scalar body raises `TypeError` on `in`. A list or string body never yields a value. |
| Server2Vue.ConfigPost | VehicleDetection_Yolo-Python-Backend/server2vue.py:92-98 | The target size is never written. Each threshold changes only when its key is present and converts. A bad confidence changes nothing. A bad area threshold keeps the new confidence and the old area threshold. The reply is success exactly when both reads succeed. |
| Server2Vue.ConfigPostIgnoresOtherKeys | VehicleDetection_Yolo-Python-Backend/server2vue.py:92-98 | Bodies that agree on `confidence` and `area_threshold` give the same result, whatever their other keys. |
| Server2Vue.ConfigPostNonObject | VehicleDetection_Yolo-Python-Backend/server2vue.py:92-98 | A body that is not an object never changes a setting, and a scalar body raises `TypeError`. |
| Server2Vue.ConfigPostPartialUpdate | VehicleDetection_Yolo-Python-Backend/server2vue.py:94-97 | A good confidence followed by a `null` area threshold leaves the confidence updated and fails the request. |
| Server2Vue.ConfigGet | VehicleDetection_Yolo-Python-Backend/server2vue.py:100-105 | GET reports the current confidence, area threshold, target width and target height. |
| Server2Vue.GetAfterPost | VehicleDetection_Yolo-Python-Backend/server2vue.py:92-105 | After a successful POST of both thresholds, GET reports them with the target unchanged. |
| Server2Vue.TargetNeverChanges | VehicleDetection_Yolo-Python-Backend/server2vue.py:92-105 | No sequence of POSTs changes the target size. |
| Server2Vue.GetReportsInitialTarget | VehicleDetection_Yolo-Python-Backend/server2vue.py:100-105 | From the initial settings, GET reports 544 by 960 whatever was posted. |

## Left out

- Process supervision: the concurrent draining of `ffmpeg`'s output against `waitFor` is reduced to the oracle's final outcome, and log lines are not modelled.
- UUID generation: the three UUIDs of a request are parameters, and the freshness proofs require them to be 36 lower-case hex digits and dashes, distinct where the request needs it, and unused on disk. The remaining conditions of `Fresh`, on file names and directory chains, are listed under Fresh below.
- Timing of an interrupted `ffmpeg` run: the service drains the tool's output before `waitFor`, so an interrupted wait usually finds the tool finished. The oracle says what it had written by then; a `.wav` still being written is not modelled apart from that.
- Logging, Spring annotations and the unused `getPublicUrl`: they produce no observable result.
- `WebConfig.java` and the front end: they are framework and UI configuration. `ProcessedData` is a plain two-string datatype. `ApiResponse` is not part of this model beyond its two constructors.
- ProcessingService.Exception.Message: a filesystem error's message is modelled as the absolute, segment-joined path only. Java prints the path as the service built it, for example `./uploads/images/<uuid>.b/c` for a configured `./uploads`, and `createDirectories` reports the absolute but unnormalised `/<cwd>/./uploads/images`. A generic `FileSystemException`, such as a "Not a directory" failure, appends `: ` and the system's reason. The messages of a failed `transferTo` are likewise modelled as the path only. So the 1002 message text for filesystem failures is stated only up to these differences.
- Windows path separators: paths are POSIX, split on `/`. Files.Resolve does not treat `.` and `..` specially, as `Path.resolve` does not normalise either.
- Files.Resolve: it accepts every character. The service checks for the NUL character before resolving, so `saveFile` refuses such names as Java does. Characters the platform's file-name encoding cannot map raise the same `InvalidPathException` in Java and are not modelled.
- Files.DeleteIfExists: never removes the root directory. The service only deletes the raw `.webm` file. A path below a regular file fails with `NotDirectory`, standing for the generic `FileSystemException` Java throws for "Not a directory".
- Input/output errors other than path conflicts: permissions, a full disk, a failing upload stream (ProcessingService.java:80 and :120) and a partially written copy are not modelled. The results that a fresh request succeeds exactly when the tool exits with 0 (ProcessMediaOutcome, ConvertSucceedsIffExitZero, EndToEnd) hold only under that assumption.
- Fresh: the proofs about a whole request (SaveFileSucceeds, TargetsDistinct, ProcessMediaSaves, ProcessMediaOutcome, ProcessMediaSteps, ProcessMediaKeepsUploads, ProcessMediaFailureCause, EndToEnd) cover requests whose client file names are `null` or have a dot with neither `/` nor NUL after the last one. They also need no regular file on the chains of the three directories the request uses, and the four target paths unused and off those chains. A name like `a.b/c` resolves into a sub-directory and is outside these proofs.
- ProcessingService.SaveDir: `Paths.get(uploadDir, subDir)` appends `subDir` as one path segment. Both callers pass the constants `images` and `audios`, so a sub-directory name containing `/` is not modelled.
- Vision libraries: YOLO loading and inference, camera capture, `cv2.resize`, drawing, `imshow`/`waitKey` and the MJPEG streams. Detections and the resized frame are inputs.
- MainApp.TransformFrame: the resize scale and the rounding of the new size are floating point, so the resized frame is an input. The crop is proved only for a rectangular resized frame at least as large as the target.
- Display scaling in `init_camera` and the frame publication callback: floating point and threads.
- MainApp.FrameStep: the milliseconds are exact real arithmetic rather than IEEE doubles. An exception raised by the callback itself is caught in the loop and has no effect on the record, so it is not modelled.
- MainApp.SerializeDetection: `bbox` elements are already numbers and `class` values are strings or `None`. Other Python types and their `float`/`str` conversions are not modelled.
- Threads, locks, the Flask thread, `time.time()` (a parameter) and `/api/status`.
- Server2Vue.DetectionData: `processing_time` and `last_update` start as the integer 0 in the source and are modelled as reals. JSON rendering of `0` against `0.0` is not modelled.
- Server2Vue.ToFloat: parsing a string to a number is a parameter. A request body that is not JSON is not modelled. A JSON number is an exact real and `float` keeps it exactly. Python's `float` of a JSON integer beyond the double range raises `OverflowError`, and integers above 2^53 are rounded, so for such bodies ConfigPost and GetAfterPost overstate what the server stores. For example, a huge `area_threshold` updates the confidence and then fails, but the model succeeds.

=== FILE: files.dfy ===
/** The local filesystem the upload service writes to, as an immutable value:
    regular files map a path to their bytes, directories form a set of paths.
    Each operation mirrors the `java.nio.file.Files` call the service makes and
    returns either the new filesystem or the error that call would throw. */
module Files {
  import opened Results

  type Bytes = seq<bv8>

  /** An absolute path, as its segments below the root; `[]` is the root. */
  type Path = seq<string>

  datatype FileSystem = FileSystem(files: map<Path, Bytes>, dirs: set<Path>)

  /** The `IOException` subclasses the modelled calls can throw. */
  datatype FsError =
    | FileAlreadyExists(path: Path)
    | NoSuchFile(path: Path)
    | NotDirectory(path: Path)
    | IsDirectory(path: Path)
    | DirectoryNotEmpty(path: Path)
  {
    /** The path the failed call was given. */
    function At(): Path {
      match this
      case FileAlreadyExists(p) => p
      case NoSuchFile(p) => p
      case NotDirectory(p) => p
      case IsDirectory(p) => p
      case DirectoryNotEmpty(p) => p
    }
  }

  function Parent(p: Path): Path
    requires p != []
  {
    p[..|p| - 1]
  }

  /** A filesystem is valid when the root is a directory, every directory's
      parent is a directory, and every file sits in a directory and is not
      itself a directory. */
  predicate Valid(fs: FileSystem) {
    && [] in fs.dirs
    && (forall d | d in fs.dirs && d != [] :: Parent(d) in fs.dirs)
    && (forall f | f in fs.files :: f != [] && f !in fs.dirs && Parent(f) in fs.dirs)
  }

  /** `Files.exists`: true for files and directories alike. */
  predicate Exists(fs: FileSystem, p: Path) {
    p in fs.files || p in fs.dirs
  }

  /** The path itself and every ancestor of it, the root included. */
  function Prefixes(d: Path): (r: set<Path>)
    ensures forall k | 0 <= k <= |d| :: d[..k] in r
    ensures forall q | q in r :: |q| <= |d| && q == d[..|q|]
  {
    set k | 0 <= k <= |d| :: d[..k]
  }

  /** `t` is `d` itself or one of its ancestors. */
  predicate OnChain(t: Path, d: Path) {
    |t| <= |d| && d[..|t|] == t
  }

  lemma PrefixesAreChain(t: Path, d: Path)
    ensures t in Prefixes(d) <==> OnChain(t, d)
  {
    if OnChain(t, d) { assert d[..|t|] in Prefixes(d); }
  }

  /** Some ancestor of `d`, or `d` itself, is a regular file. */
  predicate FileOnPath(fs: FileSystem, d: Path) {
    exists k | 0 <= k <= |d| :: d[..k] in fs.files
  }

  lemma {:induction false} DirectoryAncestors(fs: FileSystem, d: Path)
    requires Valid(fs)
    requires d in fs.dirs
    ensures Prefixes(d) <= fs.dirs
    ensures !FileOnPath(fs, d)
    decreases |d|
  {
    if d != [] {
      DirectoryAncestors(fs, Parent(d));
      forall q | q in Prefixes(d)
        ensures q in fs.dirs
      {
        if |q| < |d| {
          assert q == Parent(d)[..|q|];
          assert q in Prefixes(Parent(d));
        } else {
          assert q == d;
        }
      }
    }
    forall k | 0 <= k <= |d|
      ensures d[..k] !in fs.files
    {
      assert d[..k] in Prefixes(d);
    }
  }

  /** `Files.createDirectories`: creates `d` and every missing ancestor; fails
      when some ancestor (or `d` itself) is a regular file. */
  function CreateDirectories(fs: FileSystem, d: Path): (r: Result<FileSystem, FsError>)
    ensures r.Success? <==> !FileOnPath(fs, d)
    ensures r.Success? ==> r.value.files == fs.files && r.value.dirs == fs.dirs + Prefixes(d)
    ensures r.Success? && Valid(fs) ==> Valid(r.value) && d in r.value.dirs
  {
    if FileOnPath(fs, d) then
      Failure(NotDirectory(d))
    else
      var fs' := FileSystem(fs.files, fs.dirs + Prefixes(d));
      assert d in fs'.dirs by { assert d[..|d|] == d; }
      assert Valid(fs) ==> Valid(fs') by {
        if Valid(fs) {
          forall q | q in fs'.dirs && q != []
            ensures Parent(q) in fs'.dirs
          {
            if q in Prefixes(d) {
              assert Parent(q) == d[..|q| - 1];
            }
          }
        }
      }
      Success(fs')
  }

  /** The service's directory step: `if (!Files.exists(d)) Files.createDirectories(d)`.
      A regular file at `d` counts as existing, so nothing is created then. */
  function EnsureDirectory(fs: FileSystem, d: Path): (r: Result<FileSystem, FsError>)
    ensures Exists(fs, d) ==> r == Success(fs)
    ensures !Exists(fs, d) ==> (r.Success? <==> !FileOnPath(fs, d))
    ensures r.Success? ==> r.value.files == fs.files && fs.dirs <= r.value.dirs
    ensures Valid(fs) && !FileOnPath(fs, d) ==> r.Success? && Valid(r.value) && r.value.dirs == fs.dirs + Prefixes(d)
  {
    if Exists(fs, d) then
      assert Valid(fs) && !FileOnPath(fs, d) ==> Prefixes(d) <= fs.dirs by {
        if Valid(fs) && !FileOnPath(fs, d) {
          assert d !in fs.files by { assert d[..|d|] == d; }
          DirectoryAncestors(fs, d);
        }
      }
      Success(fs)
    else
      CreateDirectories(fs, d)
  }

  lemma EnsureDirectoryIdempotent(fs: FileSystem, d: Path)
    requires Valid(fs)
    requires EnsureDirectory(fs, d).Success?
    ensures EnsureDirectory(EnsureDirectory(fs, d).value, d) == EnsureDirectory(fs, d)
  {
    if !Exists(fs, d) {
      assert d in Prefixes(d) by { assert d[..|d|] == d; }
    }
  }

  /** `Files.copy(in, target)` with no copy options: an existing target, file or
      directory, is never replaced. */
  function CopyNew(fs: FileSystem, target: Path, data: Bytes): (r: Result<FileSystem, FsError>)
    ensures Exists(fs, target) ==> r == Failure(FileAlreadyExists(target))
    ensures r.Success? ==> target !in fs.files && target in r.value.files && r.value.files[target] == data
    ensures r.Success? ==> r.value.dirs == fs.dirs && r.value.files.Keys == fs.files.Keys + {target}
    ensures r.Success? ==> forall p | p in fs.files :: p in r.value.files && r.value.files[p] == fs.files[p]
    ensures r.Success? && Valid(fs) ==> Valid(r.value)
    ensures Valid(fs) && !Exists(fs, target) && target != [] && Parent(target) in fs.dirs ==> r.Success?
  {
    if Exists(fs, target) then
      Failure(FileAlreadyExists(target))
    else if target == [] || Parent(target) !in fs.dirs then
      Failure(NoSuchFile(target))
    else
      Success(fs.(files := fs.files[target := data]))
  }

  /** `MultipartFile.transferTo(dest)`: an existing file at `dest` is replaced. */
  function TransferTo(fs: FileSystem, target: Path, data: Bytes): (r: Result<FileSystem, FsError>)
    ensures r.Success? ==> target !in fs.dirs && target in r.value.files && r.value.files[target] == data
    ensures r.Success? ==> r.value.dirs == fs.dirs && r.value.files.Keys == fs.files.Keys + {target}
    ensures r.Success? ==> forall p | p in fs.files && p != target :: p in r.value.files && r.value.files[p] == fs.files[p]
    ensures r.Success? && Valid(fs) ==> Valid(r.value)
    ensures Valid(fs) && target !in fs.dirs && target != [] && Parent(target) in fs.dirs ==> r.Success?
  {
    if target in fs.dirs then
      Failure(IsDirectory(target))
    else if target == [] || Parent(target) !in fs.dirs then
      Failure(NoSuchFile(target))
    else
      Success(fs.(files := fs.files[target := data]))
  }

  /** No file or directory sits directly inside `p`. */
  predicate Childless(fs: FileSystem, p: Path) {
    && (forall q | q in fs.dirs && q != [] :: Parent(q) != p)
    && (forall q | q in fs.files && q != [] :: Parent(q) != p)
  }

  /** `p` lies below a regular file: some proper prefix of it is a file, so
      looking `p` up fails with "not a directory". */
  predicate BelowFile(fs: FileSystem, p: Path) {
    p != [] && FileOnPath(fs, Parent(p))
  }

  /** `Files.deleteIfExists`: removes a regular file or an empty directory and
      does nothing for a missing path; a path below a regular file, a
      directory that still has entries and the root are refused. */
  function DeleteIfExists(fs: FileSystem, p: Path): (r: Result<FileSystem, FsError>)
    ensures r.Success? <==> !BelowFile(fs, p) && (p !in fs.dirs || (p != [] && Childless(fs, p)))
    ensures r.Failure? ==> r.error == (if BelowFile(fs, p) then NotDirectory(p) else DirectoryNotEmpty(p))
    ensures r.Success? ==> !Exists(r.value, p) && r.value.dirs == fs.dirs - {p}
    ensures r.Success? ==> forall q | q in fs.files && q != p :: q in r.value.files && r.value.files[q] == fs.files[q]
    ensures r.Success? ==> r.value.files.Keys <= fs.files.Keys
    ensures r.Success? && Valid(fs) ==> Valid(r.value)
  {
    if BelowFile(fs, p) then Failure(NotDirectory(p))
    else if p in fs.dirs && (p == [] || !Childless(fs, p)) then Failure(DirectoryNotEmpty(p))
    else Success(FileSystem(fs.files - {p}, fs.dirs - {p}))
  }

  lemma DeleteIfExistsIdempotent(fs: FileSystem, p: Path)
    requires DeleteIfExists(fs, p).Success?
    ensures DeleteIfExists(DeleteIfExists(fs, p).value, p) == DeleteIfExists(fs, p)
  {
    var fs' := DeleteIfExists(fs, p).value;
    assert fs'.files - {p} == fs'.files;
    assert fs'.dirs - {p} == fs'.dirs;
  }

  /** Position of the first `c` in `s`, or -1 (`String.indexOf`). */
  function IndexOf(s: string, c: char): (i: int)
    ensures -1 <= i < |s|
    ensures i == -1 <==> c !in s
    ensures 0 <= i ==> s[i] == c && c !in s[..i]
  {
    if |s| == 0 then -1
    else if s[0] == c then 0
    else
      var j := IndexOf(s[1..], c);
      if j < 0 then -1
      else
        assert s[..j + 1] == [s[0]] + s[1..][..j];
        j + 1
  }

  /** `name` split at `/`, empty pieces dropped, each piece appended to
      `dir` as one more segment. */
  function Join(dir: Path, name: string): (r: Path)
    ensures |dir| <= |r| && r[..|dir|] == dir
    ensures forall k | |dir| <= k < |r| :: r[k] != [] && '/' !in r[k]
    ensures '/' !in name && name != [] ==> r == dir + [name]
    decreases |name|
  {
    if name == [] then dir
    else
      var i := IndexOf(name, '/');
      if i < 0 then dir + [name]
      else
        var dir' := if i == 0 then dir else dir + [name[..i]];
        var r := Join(dir', name[i + 1..]);
        assert r[..|dir|] == dir by {
          assert r[..|dir'|] == dir';
          assert dir'[..|dir|] == dir;
        }
        assert 0 < i ==> r[|dir|] == name[..i] && name[..i] != [] && '/' !in name[..i] by {
          if 0 < i {
            assert r[..|dir'|] == dir';
            assert r[|dir|] == dir'[|dir|];
          }
        }
        r
  }

  /** `dir.resolve(name)` on a POSIX filesystem: an absolute `name` replaces
      `dir`, a relative one is joined onto it. */
  function Resolve(dir: Path, name: string): (r: Path)
    ensures name != [] && name[0] == '/' ==> r == Join([], name)
    ensures name == [] || name[0] != '/' ==> r == Join(dir, name)
  {
    if name != [] && name[0] == '/' then Join([], name) else Join(dir, name)
  }

  /** The segments written out with `/` between them. */
  function JoinText(segs: seq<string>): string {
    if segs == [] then ""
    else if |segs| == 1 then segs[0]
    else segs[0] + "/" + JoinText(segs[1..])
  }

  /** A relative name already in normal form: non-empty, no `/` at either
      end and no two `/` in a row. */
  predicate Clean(name: string) {
    && name != []
    && name[0] != '/'
    && name[|name| - 1] != '/'
    && forall k | 0 <= k < |name| - 1 :: !(name[k] == '/' && name[k + 1] == '/')
  }

  /** What is left after the first `/` of a clean name is clean. */
  lemma CleanRest(name: string, i: int)
    requires Clean(name) && 0 <= i < |name| && name[i] == '/'
    ensures 0 < i < |name| - 1 && Clean(name[i + 1..])
  {
    var rest := name[i + 1..];
    assert rest[0] == name[i + 1];
    forall k | 0 <= k < |rest| - 1
      ensures !(rest[k] == '/' && rest[k + 1] == '/')
    {
      assert rest[k] == name[i + 1 + k] && rest[k + 1] == name[i + 1 + k + 1];
    }
  }

  /** Joining a name whose first `/` is at `i > 0` appends the piece before
      it, then joins the rest. */
  lemma JoinUnfold(dir: Path, name: string, i: int)
    requires name != [] && i == IndexOf(name, '/') && 0 < i
    ensures Join(dir, name) == Join(dir + [name[..i]], name[i + 1..])
  {
  }

  lemma JoinFirstPiece(dir: Path, name: string, i: int)
    requires name != [] && i == IndexOf(name, '/') && 0 < i
    ensures Join(dir, name)[|dir|..] == [name[..i]] + Join(dir + [name[..i]], name[i + 1..])[|dir| + 1..]
  {
    var dir' := dir + [name[..i]];
    var r := Join(dir', name[i + 1..]);
    JoinUnfold(dir, name, i);
    assert r[|dir|] == name[..i] by {
      assert r[..|dir'|] == dir';
      assert r[..|dir'|][|dir|] == r[|dir|];
    }
    SliceCons(r, |dir|);
  }

  lemma JoinSinglePiece(dir: Path, name: string)
    requires name != [] && '/' !in name
    ensures Join(dir, name)[|dir|..] == [name]
  {
    assert (dir + [name])[|dir|..] == [name];
  }

  lemma SplitAt<T>(s: seq<T>, i: nat)
    requires i < |s|
    ensures s == s[..i] + [s[i]] + s[i + 1..]
  {
  }

  lemma SliceCons<T>(r: seq<T>, n: nat)
    requires n < |r|
    ensures r[n..] == [r[n]] + r[n + 1..]
  {
  }

  /** Joining a clean name appends exactly its `/`-separated pieces:
      writing the new segments out again gives the name back. */
  lemma {:induction false} JoinRoundTrip(dir: Path, name: string)
    requires Clean(name)
    ensures JoinText(Join(dir, name)[|dir|..]) == name
    decreases |name|
  {
    var i := IndexOf(name, '/');
    if i < 0 {
      JoinSinglePiece(dir, name);
    } else {
      CleanRest(name, i);
      var dir' := dir + [name[..i]];
      var rest := name[i + 1..];
      JoinRoundTrip(dir', rest);
      JoinFirstPiece(dir, name, i);
      var tail := Join(dir', rest)[|dir'|..];
      JoinTextCons(name[..i], tail, rest);
      SplitAt(name, i);
    }
  }

  lemma JoinTextCons(s: string, tail: seq<string>, text: string)
    requires JoinText(tail) == text && text != []
    ensures JoinText([s] + tail) == s + "/" + text
  {
    assert tail != [];
    assert ([s] + tail)[1..] == tail;
  }

  /** A name with a leading `/` is absolute: the directory is ignored and
      the path is rebuilt from the root. */
  lemma ResolveAbsolute(dir: Path, name: string)
    requires Clean(name)
    ensures Render(Resolve(dir, "/" + name)) == "/" + name
  {
    var full := "/" + name;
    assert IndexOf(full, '/') == 0;
    assert full[1..] == name;
    assert Resolve(dir, full) == Join([], name);
    JoinRoundTrip([], name);
    var r := Join([], name);
    assert r[0..] == r;
    RenderIsJoinText(r);
  }

  /** `Path.toString()` of an absolute path. */
  function Render(p: Path): (r: string)
    ensures r != [] && r[0] == '/'
  {
    if p == [] then "/" else RenderSegments(p)
  }

  function RenderSegments(p: Path): (r: string)
    ensures p != [] ==> r != [] && r[0] == '/'
  {
    if p == [] then "" else RenderSegments(p[..|p| - 1]) + "/" + p[|p| - 1]
  }

  lemma {:induction false} JoinTextAppend(segs: seq<string>, s: string)
    requires segs != []
    ensures JoinText(segs + [s]) == JoinText(segs) + "/" + s
    decreases |segs|
  {
    if |segs| > 1 {
      JoinTextAppend(segs[1..], s);
      assert (segs + [s])[1..] == segs[1..] + [s];
    }
  }

  /** The rendered path is the root followed by the segments separated by
      `/`: the text a path prints is fixed by its segments alone. */
  lemma {:induction false} RenderIsJoinText(p: Path)
    ensures Render(p) == "/" + JoinText(p)
    decreases |p|
  {
    if |p| == 1 {
      assert p[..0] == [];
      assert RenderSegments(p) == RenderSegments(p[..0]) + "/" + p[0];
      assert JoinText(p) == p[0];
    } else if |p| > 1 {
      RenderIsJoinText(p[..|p| - 1]);
      JoinTextAppend(p[..|p| - 1], p[|p| - 1]);
      assert p[..|p| - 1] + [p[|p| - 1]] == p;
    }
  }
}

=== FILE: main_app.dfy ===
/** The detection loop's integer and record logic: the alert level for a
    vehicle count, the serialisation of detections handed to the data
    callback, the centre crop applied to every camera frame, and the
    statistics published after each frame. Camera, model and drawing are
    parameters or left out. */
module MainApp {
  import opened Results

  /** The module-level settings the web server reads and writes. */
  datatype Settings = Settings(confThreshold: real, areaFracThreshold: real, targetWidth: int, targetHeight: int)

  const InitialSettings := Settings(0.25, 0.3, 544, 960)

  /** The Python exceptions this model can raise. */
  datatype PyError = TypeError | ValueError

  /* ---------------------------------------------------------------------
     Alert level
     --------------------------------------------------------------------- */

  /** 0 below two vehicles, 1 for two to seven, 2 above seven. */
  function AlertLevel(count: nat): (level: nat)
    ensures level <= 2
    ensures level == 0 <==> count < 2
    ensures level == 1 <==> 2 <= count <= 7
    ensures level == 2 <==> 7 < count
  {
    if count < 2 then 0
    else if 2 <= count <= 7 then 1
    else 2
  }

  /** More vehicles never lower the alert. */
  lemma AlertLevelMonotone(a: nat, b: nat)
    requires a <= b
    ensures AlertLevel(a) <= AlertLevel(b)
  {
  }

  /* ---------------------------------------------------------------------
     Serialisation of detections
     --------------------------------------------------------------------- */

  /** A detection arrives either as a dict or as an object with attributes. */
  datatype Style = Dict | Object

  /** One key or attribute of a detection: absent, present but `None`, or
      present with a value. */
  datatype Field<T> = Missing | PyNone | Present(value: T)

  datatype Detection = Detection(style: Style, bbox: Field<seq<real>>, confidence: Field<real>, cls: Field<string>)

  /** The JSON-ready entry built for one detection. */
  datatype Serialized = Serialized(bbox: seq<real>, confidence: real, cls: string)

  /** `d.get(key)` for a dict (an absent key reads as `None`), and
      `getattr(d, key, default)` for an object. */
  function Read<T>(style: Style, f: Field<T>, default: T): Field<T> {
    match f
    case Missing => if style == Dict then PyNone else Present(default)
    case _ => f
  }

  /** One detection's entry: `bbox` as a list (empty when missing, `None` or
      empty), `confidence` through `float` (which rejects `None`), `class`
      through `str` (so `None` becomes `"None"`). Objects fall back to `[]`,
      `0` and `"unknown"`. */
  function SerializeDetection(d: Detection): (r: Result<Serialized, PyError>)
    ensures d.confidence.Present? ==> r.Success? && r.value.confidence == d.confidence.value
    ensures d.style == Object && d.confidence.Missing? ==> r.Success? && r.value.confidence == 0.0
    ensures d.confidence.PyNone? || (d.style == Dict && d.confidence.Missing?) ==> r == Failure(TypeError)
    ensures r.Success? ==> r.value.bbox == (if d.bbox.Present? then d.bbox.value else [])
    ensures r.Success? && d.cls.Present? ==> r.value.cls == d.cls.value
    ensures r.Success? && d.cls.Missing? ==> r.value.cls == (if d.style == Object then "unknown" else "None")
    ensures r.Success? && d.cls.PyNone? ==> r.value.cls == "None"
  {
    var bbox := Read(d.style, d.bbox, []);
    var conf := Read(d.style, d.confidence, 0.0);
    var cls := Read(d.style, d.cls, "unknown");
    match conf
    case Present(c) =>
      var box := if bbox.Present? && |bbox.value| > 0 then bbox.value else [];
      var name := if cls.Present? then cls.value else "None";
      Success(Serialized(box, c, name))
    case _ => Failure(TypeError)
  }

  /** The whole list: one entry per detection, in order, or the first
      `TypeError`. */
  function SerializeAll(dets: seq<Detection>): (r: Result<seq<Serialized>, PyError>)
    ensures r.Success? <==> forall i | 0 <= i < |dets| :: SerializeDetection(dets[i]).Success?
    ensures r.Success? ==> |r.value| == |dets|
    ensures r.Success? ==> forall i | 0 <= i < |dets| :: r.value[i] == SerializeDetection(dets[i]).value
    ensures r.Failure? ==> r.error == TypeError
  {
    if dets == [] then Success([])
    else
      var init := dets[..|dets| - 1];
      var last := dets[|dets| - 1];
      match SerializeAll(init)
      case Failure(e) => Failure(e)
      case Success(prefix) =>
        match SerializeDetection(last)
        case Failure(e) => Failure(e)
        case Success(entry) => Success(prefix + [entry])
  }

  /** The `for d in dets` loop of the main loop. */
  method SerializeDetections(dets: seq<Detection>) returns (r: Result<seq<Serialized>, PyError>)
    ensures r == SerializeAll(dets)
    ensures r.Success? ==> |r.value| == |dets|
    ensures r.Failure? <==> exists i | 0 <= i < |dets| :: SerializeDetection(dets[i]).Failure?
  {
    var out: seq<Serialized> := [];
    var i := 0;
    while i < |dets|
      invariant 0 <= i <= |dets|
      invariant SerializeAll(dets[..i]) == Success(out)
    {
      assert dets[..i + 1][..i] == dets[..i];
      match SerializeDetection(dets[i])
      case Failure(e) =>
        assert !SerializeDetection(dets[i]).Success?;
        assert SerializeAll(dets).Failure?;
        return Failure(e);
      case Success(entry) =>
        out := out + [entry];
      i := i + 1;
    }
    assert dets[..i] == dets;
    r := Success(out);
  }

  /* ---------------------------------------------------------------------
     Centre crop
     --------------------------------------------------------------------- */

  /** A frame as rows of pixels. */
  type Image<P> = seq<seq<P>>

  function Height<P>(img: Image<P>): nat {
    |img|
  }

  function Width<P>(img: Image<P>): nat {
    if |img| == 0 then 0 else |img[0]|
  }

  predicate Rectangular<P>(img: Image<P>) {
    forall i | 0 <= i < |img| :: |img[i]| == Width(img)
  }

  /** `max(0, (resized - target) // 2)`; Dafny's `/` agrees with Python's
      `//` here because the divisor is positive. */
  function CropOffset(resized: int, target: int): (offset: int)
    ensures offset >= 0
    ensures resized <= target ==> offset == 0
    ensures resized >= target ==> offset + target <= resized
    ensures resized >= target ==> 0 <= (resized - target - offset) - offset <= 1
  {
    var half := (resized - target) / 2;
    if half < 0 then 0 else half
  }

  /** A bound clipped to the length of the sequence. */
  function Clip(n: nat, len: nat): (c: nat)
    ensures c <= n && c <= len && (c == n || c == len)
  {
    if n < len then n else len
  }

  /** Python's `s[lo:hi]` for non-negative bounds: both bounds are clipped to
      the sequence, and an empty range gives the empty sequence. */
  function PySlice<T>(s: seq<T>, lo: nat, hi: nat): (r: seq<T>)
    ensures var a := Clip(lo, |s|); var b := Clip(hi, |s|);
            r == if a <= b then s[a..b] else []
  {
    if lo >= |s| || hi <= lo then []
    else if hi <= |s| then s[lo..hi]
    else s[lo..]
  }

  /** `resized[y0:y0 + h, x0:x0 + w]`: a window that fits gives `h` rows
      of `w` pixels each, read from the image at the window's offsets. */
  function Crop<P>(img: Image<P>, x0: nat, y0: nat, w: nat, h: nat): (r: Image<P>)
    ensures Rectangular(img) && y0 + h <= Height(img) && x0 + w <= Width(img) ==>
              && Height(r) == h
              && (forall i | 0 <= i < h :: |r[i]| == w)
              && (forall i, j | 0 <= i < h && 0 <= j < w :: r[i][j] == img[y0 + i][x0 + j])
  {
    var rows := PySlice(img, y0, y0 + h);
    seq(|rows|, i requires 0 <= i < |rows| => PySlice(rows[i], x0, x0 + w))
  }

  /** `transform_frame_to_target`: a frame already of the target size comes
      back unchanged; otherwise the resized frame (computed outside the
      model) is cropped to the centred target window. */
  function TransformFrame<P>(frame: Image<P>, targetW: nat, targetH: nat, resized: Image<P>): (r: Image<P>)
    ensures Width(frame) == targetW && Height(frame) == targetH ==> r == frame
    ensures !(Width(frame) == targetW && Height(frame) == targetH)
            && Rectangular(resized) && Width(resized) >= targetW && Height(resized) >= targetH ==>
              var x0 := CropOffset(Width(resized), targetW);
              var y0 := CropOffset(Height(resized), targetH);
              && Height(r) == targetH
              && (forall i | 0 <= i < targetH :: |r[i]| == targetW)
              && (forall i, j | 0 <= i < targetH && 0 <= j < targetW :: r[i][j] == resized[y0 + i][x0 + j])
  {
    if Width(frame) == targetW && Height(frame) == targetH then frame
    else
      var x0 := CropOffset(Width(resized), targetW);
      var y0 := CropOffset(Height(resized), targetH);
      Crop(resized, x0, y0, targetW, targetH)
  }

  /* ---------------------------------------------------------------------
     One pass of the main loop after detection
     --------------------------------------------------------------------- */

  /** `_vehicle_count` and `_last_inference_time`, as `_set_stats` writes them. */
  datatype Stats = Stats(vehicleCount: int, lastInferenceTime: real)

  const InitialStats := Stats(0, 0.0)

  /** What `detection.detect_frame` gave: the detections and the seconds it
      took, or an exception. */
  datatype Detected = Detected(dets: seq<Detection>, seconds: real) | DetectionError

  /** The arguments the data callback receives. */
  datatype Emission = Emission(detections: seq<Serialized>, alertLevel: nat, inferenceMs: real)

  datatype FrameResult = FrameResult(stats: Stats, emitted: Option<Emission>)

  /** The detections a frame counts: none after a detection error. */
  function FrameDetections(d: Detected): seq<Detection> {
    match d
    case Detected(dets, _) => dets
    case DetectionError => []
  }

  /** Publish the statistics, then, when a callback is registered, compute
      the alert level and serialise the detections; a `TypeError` while
      serialising skips the callback for this frame but not the stats. */
  function FrameStep(detected: Detected, callbackSet: bool): (r: FrameResult)
    ensures r.stats.vehicleCount == |FrameDetections(detected)|
    ensures detected.DetectionError? ==> r.stats == Stats(0, 0.0)
    ensures r.emitted.Some? <==> callbackSet && SerializeAll(FrameDetections(detected)).Success?
    ensures r.emitted.Some? ==>
              && r.emitted.value.alertLevel == AlertLevel(|FrameDetections(detected)|)
              && r.emitted.value.detections == SerializeAll(FrameDetections(detected)).value
              && |r.emitted.value.detections| == |FrameDetections(detected)|
              && r.emitted.value.inferenceMs == r.stats.lastInferenceTime * 1000.0
  {
    var dets := FrameDetections(detected);
    var seconds := if detected.Detected? then detected.seconds else 0.0;
    var stats := Stats(|dets|, seconds);
    if !callbackSet then FrameResult(stats, None)
    else
      match SerializeAll(dets)
      case Failure(_) => FrameResult(stats, None)
      case Success(entries) => FrameResult(stats, Some(Emission(entries, AlertLevel(|dets|), seconds * 1000.0)))
  }
}

=== FILE: process_controller.dfy ===
/** The `/api/process` endpoint: reject a request with an empty upload,
    otherwise run the service and turn its outcome into an HTTP status and an
    API body. */
module ProcessController {
  import opened Results
  import opened Files
  import opened ProcessingService

  /** The two bodies the endpoint builds: `ApiResponse.success(data)` and
      `ApiResponse.error(code, message)`. */
  datatype ApiResponse = ApiSuccess(data: ProcessedData) | ApiError(code: int, message: string)

  /** The endpoint either answers, or lets an unchecked exception escape to
      the framework. */
  datatype Outcome = Responded(status: int, body: ApiResponse) | Propagated(exception: Exception)

  datatype Exchange = Exchange(fs: FileSystem, outcome: Outcome)

  const Ok := 200
  const BadRequest := 400
  const InternalServerError := 500
  const EmptyUploadCode := 1001
  const ProcessingFailedCode := 1002
  const EmptyUploadMessage := "图片或音频文件为空"
  const ProcessingFailedPrefix := "文件处理失败："

  /** Java string concatenation renders a `null` message as `null`. */
  function JavaConcat(prefix: string, message: Option<string>): (r: string)
    ensures |prefix| <= |r| && r[..|prefix|] == prefix
    ensures message.Some? ==> r[|prefix|..] == message.value
    ensures message.None? ==> r[|prefix|..] == "null"
  {
    match message
    case Some(m) => prefix + m
    case None => prefix + "null"
  }

  /** `processFiles(image, audio)`. */
  function ProcessFiles(cfg: Config, fs: FileSystem, image: Upload, audio: Upload, ids: Uuids,
                        ffmpeg: Transcoder): (r: Exchange)
    ensures IsEmpty(image) || IsEmpty(audio) <==> r.outcome == Responded(BadRequest, ApiError(EmptyUploadCode, EmptyUploadMessage))
    ensures IsEmpty(image) || IsEmpty(audio) ==> r.fs == fs
    ensures r.outcome.Responded? && r.outcome.status == Ok <==>
              !IsEmpty(image) && !IsEmpty(audio) && ProcessMedia(cfg, fs, image, audio, ids, ffmpeg).result.Success?
    ensures r.outcome.Responded? && r.outcome.status == Ok ==>
              r.outcome.body == ApiSuccess(ProcessMedia(cfg, fs, image, audio, ids, ffmpeg).result.value)
    ensures r.outcome.Responded? && r.outcome.status == InternalServerError ==>
              && r.outcome.body.ApiError?
              && r.outcome.body.code == ProcessingFailedCode
              && var e := ProcessMedia(cfg, fs, image, audio, ids, ffmpeg).result;
              && e.Failure? && e.error.Checked()
              && r.outcome.body.message == JavaConcat(ProcessingFailedPrefix, e.error.Message())
    ensures r.outcome.Propagated? ==> !r.outcome.exception.Checked()
  {
    if IsEmpty(image) || IsEmpty(audio) then
      Exchange(fs, Responded(BadRequest, ApiError(EmptyUploadCode, EmptyUploadMessage)))
    else
      var step := ProcessMedia(cfg, fs, image, audio, ids, ffmpeg);
      match step.result
      case Success(data) => Exchange(step.fs, Responded(Ok, ApiSuccess(data)))
      case Failure(e) =>
        if e.Checked() then
          Exchange(step.fs, Responded(InternalServerError, ApiError(ProcessingFailedCode, JavaConcat(ProcessingFailedPrefix, e.Message()))))
        else
          Exchange(step.fs, Propagated(e))
  }

  /** A request is either rejected with 1001 or handed to the service, never
      both: every other answer carries 200 or 1002, and the filesystem is the
      service's. */
  lemma RejectedOrProcessed(cfg: Config, fs: FileSystem, image: Upload, audio: Upload, ids: Uuids, ffmpeg: Transcoder)
    ensures var r := ProcessFiles(cfg, fs, image, audio, ids, ffmpeg);
            || (r.outcome == Responded(BadRequest, ApiError(EmptyUploadCode, EmptyUploadMessage)) && r.fs == fs)
            || (&& r.fs == ProcessMedia(cfg, fs, image, audio, ids, ffmpeg).fs
                && (r.outcome.Responded? ==> r.outcome.status in {Ok, InternalServerError})
                && (r.outcome.Responded? && r.outcome.body.ApiError? ==> r.outcome.body.code == ProcessingFailedCode))
  {
  }

  /** End to end, for a fresh request with non-empty uploads: exit code 0
      answers 200 with the fixed image URL and the WAV URL; any other tool
      behaviour answers 500 with 1002 and the cause's message. */
  lemma EndToEnd(cfg: Config, fs: FileSystem, image: Upload, audio: Upload, ids: Uuids, ffmpeg: Transcoder)
    requires !IsEmpty(image) && !IsEmpty(audio)
    requires Fresh(cfg, fs, image, audio, ids)
    ensures var r := ProcessFiles(cfg, fs, image, audio, ids, ffmpeg);
            match ffmpeg(ConversionCommand(cfg, AudiosDir, ids.wav))
            case Exited(0, _) =>
              r.outcome == Responded(Ok, ApiSuccess(ProcessedData(ProcessedImageUrl,
                                                                  AudioUrlPrefix + WavRelative(AudiosDir, ids.wav))))
            case Exited(_, _) =>
              r.outcome == Responded(InternalServerError, ApiError(ProcessingFailedCode,
                                                                   ProcessingFailedPrefix + ConversionFailedMessage))
            case NotStarted(reason) =>
              r.outcome == Responded(InternalServerError,
                                     ApiError(ProcessingFailedCode,
                                              ProcessingFailedPrefix + ("Cannot run program \"" + ProgramName + "\": " + reason)))
            case Interrupted(_) =>
              r.outcome == Responded(InternalServerError, ApiError(ProcessingFailedCode, ProcessingFailedPrefix + "null"))
  {
    match ffmpeg(ConversionCommand(cfg, AudiosDir, ids.wav))
    case Exited(code, _) =>
      if code == 0 {
        ProcessMediaOutcome(cfg, fs, image, audio, ids, ffmpeg);
      } else {
        ProcessMediaFailureCause(cfg, fs, image, audio, ids, ffmpeg);
        AnswersFailure(cfg, fs, image, audio, ids, ffmpeg, IOException(ConversionFailed));
        FailureMessages(IOException(ConversionFailed));
      }
    case NotStarted(reason) =>
      ProcessMediaFailureCause(cfg, fs, image, audio, ids, ffmpeg);
      AnswersFailure(cfg, fs, image, audio, ids, ffmpeg, IOException(CannotRunProgram(reason)));
      FailureMessages(IOException(CannotRunProgram(reason)));
    case Interrupted(_) =>
      ProcessMediaFailureCause(cfg, fs, image, audio, ids, ffmpeg);
      AnswersFailure(cfg, fs, image, audio, ids, ffmpeg, InterruptedException);
      FailureMessages(InterruptedException);
  }

  /** The 1002 messages the three failure causes of the conversion produce. */
  lemma FailureMessages(e: Exception)
    requires e.Checked()
    ensures e == IOException(ConversionFailed) ==>
              JavaConcat(ProcessingFailedPrefix, e.Message()) == ProcessingFailedPrefix + ConversionFailedMessage
    ensures e.IOException? && e.cause.CannotRunProgram? ==>
              JavaConcat(ProcessingFailedPrefix, e.Message())
                == ProcessingFailedPrefix + ("Cannot run program \"" + ProgramName + "\": " + e.cause.reason)
    ensures e == InterruptedException ==> JavaConcat(ProcessingFailedPrefix, e.Message()) == ProcessingFailedPrefix + "null"
  {
  }

  lemma AnswersFailure(cfg: Config, fs: FileSystem, image: Upload, audio: Upload, ids: Uuids, ffmpeg: Transcoder, e: Exception)
    requires !IsEmpty(image) && !IsEmpty(audio) && e.Checked()
    requires ProcessMedia(cfg, fs, image, audio, ids, ffmpeg).result == Failure(e)
    ensures ProcessFiles(cfg, fs, image, audio, ids, ffmpeg).outcome
              == Responded(InternalServerError, ApiError(ProcessingFailedCode, JavaConcat(ProcessingFailedPrefix, e.Message())))
  {
  }

  /** A dotless file name escapes as an unchecked exception: the endpoint
      sends no API body at all. */
  lemma DotlessNameEscapes(cfg: Config, fs: FileSystem, image: Upload, audio: Upload, ids: Uuids, ffmpeg: Transcoder)
    requires !IsEmpty(image) && !IsEmpty(audio)
    requires Valid(fs) && !FileOnPath(fs, SaveDir(cfg, ImagesDir))
    requires image.originalFilename.Some? && '.' !in image.originalFilename.value
    ensures ProcessFiles(cfg, fs, image, audio, ids, ffmpeg).outcome == Propagated(StringIndexOutOfBounds(-1))
  {
    ProcessMediaNoDot(cfg, fs, image, audio, ids, ffmpeg);
  }

  /** An image name with a NUL in its extension escapes as the unchecked
      `InvalidPathException`: the endpoint sends no API body at all. */
  lemma NulNameEscapes(cfg: Config, fs: FileSystem, image: Upload, audio: Upload, ids: Uuids, ffmpeg: Transcoder)
    requires !IsEmpty(image) && !IsEmpty(audio)
    requires Valid(fs) && !FileOnPath(fs, SaveDir(cfg, ImagesDir))
    requires Extension(image.originalFilename).Success? && '\0' in ExtOf(image.originalFilename)
    ensures ProcessFiles(cfg, fs, image, audio, ids, ffmpeg).outcome
              == Propagated(InvalidPath(ids.image + ExtOf(image.originalFilename)))
  {
    ProcessMediaNulName(cfg, fs, image, audio, ids, ffmpeg);
  }
}

=== FILE: processing_service.dfy ===
/** The upload-and-convert service: saving an uploaded file under a fresh
    UUID, saving raw audio and converting it to WAV with an external `ffmpeg`
    process, and assembling the two response URLs. Every operation threads the
    filesystem through and returns it together with a success value or the
    exception the service would throw; earlier writes are never rolled back. */
module ProcessingService {
  import opened Results
  import opened Files

  /** `cwd` is the process's working directory; `uploadDir` is the resolved
      location of the `app.upload.dir` setting (default `./uploads`). */
  datatype Config = Config(cwd: Path, uploadDir: Path)

  function DefaultConfig(cwd: Path): Config {
    Config(cwd, cwd + ["uploads"])
  }

  /** A multipart upload: the client's file name (`null` allowed) and its bytes. */
  datatype Upload = Upload(originalFilename: Option<string>, content: Bytes)

  predicate IsEmpty(u: Upload) {
    |u.content| == 0
  }

  /** What the external process does when started with a given argument list:
      it cannot be started, the wait for its exit code is interrupted, or it
      exits with a code. In the last two cases it may have written its output
      file: the service drains the tool's output before it waits, so an
      interrupted wait usually finds the tool already done. */
  datatype ToolRun = NotStarted(reason: string) | Interrupted(wrote: Option<Bytes>) | Exited(code: int, wrote: Option<Bytes>)

  type Transcoder = seq<string> -> ToolRun

  datatype IoCause = Fs(error: FsError) | CannotRunProgram(reason: string) | ConversionFailed

  /** The exceptions that can leave `processMedia`. Only the first two are
      checked exceptions the controller catches; `InvalidPath` is the
      unchecked exception `Path.resolve` throws for a name with a NUL. */
  datatype Exception =
    | IOException(cause: IoCause)
    | InterruptedException
    | StringIndexOutOfBounds(index: int)
    | InvalidPath(input: string)
  {
    predicate Checked() {
      IOException? || InterruptedException?
    }

    /** `getMessage()`; `None` stands for Java's `null`. Only an
        interruption has no message; a filesystem error names its path, a
        tool that cannot start names the program and the reason. */
    function Message(): (m: Option<string>)
      requires Checked()
      ensures m.None? <==> InterruptedException?
      ensures IOException? && cause.Fs? ==> m == Some(Render(cause.error.At()))
      ensures IOException? && cause.CannotRunProgram? ==>
                && m.Some? && CannotRunPrefix <= m.value
                && m.value[|CannotRunPrefix|..] == cause.reason
      ensures this == IOException(ConversionFailed) ==> m == Some(ConversionFailedMessage)
    {
      match this
      case IOException(Fs(e)) => Some(Render(e.At()))
      case IOException(CannotRunProgram(reason)) => Some(CannotRunPrefix + reason)
      case IOException(ConversionFailed) => Some(ConversionFailedMessage)
      case InterruptedException => None
    }
  }

  datatype Step<T> = Step(fs: FileSystem, result: Result<T, Exception>)

  /** The three UUIDs one request draws, in the order the service draws them. */
  datatype Uuids = Uuids(image: string, audio: string, wav: string)

  datatype ProcessedData = ProcessedData(imageUrl: string, audioUrl: string)

  const ImagesDir := "images"
  const AudiosDir := "audios"
  const ProgramName := "ffmpeg"
  /** How `ProcessBuilder.start` opens the message of a program it cannot run. */
  const CannotRunPrefix := "Cannot run program \"" + ProgramName + "\": "
  const ProcessedImageUrl := "http://localhost:8080/Files/processedDir/img1.jpg"
  const AudioUrlPrefix := "http://localhost:8080/uploads/"
  const ConversionFailedMessage := "FFmpeg 转换音频失败"

  /** The shape of `UUID.toString()`: 36 lower-case hex digits and dashes. */
  predicate ValidUuid(u: string) {
    |u| == 36 && forall i | 0 <= i < |u| :: UuidChar(u[i])
  }

  predicate UuidChar(c: char) {
    ('0' <= c <= '9') || ('a' <= c <= 'f') || c == '-'
  }

  /** `String.lastIndexOf`: the position of the last `c`, or -1. */
  function LastIndexOf(s: string, c: char): (i: int)
    ensures -1 <= i < |s|
    ensures i == -1 <==> c !in s
    ensures 0 <= i ==> s[i] == c && c !in s[i + 1..]
  {
    if |s| == 0 then -1
    else if s[|s| - 1] == c then |s| - 1
    else
      assert s == s[..|s| - 1] + [s[|s| - 1]];
      LastIndexOf(s[..|s| - 1], c)
  }

  /** The extension `saveFile` keeps: `""` for a `null` name, otherwise
      `name.substring(name.lastIndexOf("."))`, which throws for a name
      without a dot because `substring(-1)` is out of bounds. */
  function Extension(name: Option<string>): (r: Result<string, Exception>)
    ensures name.None? ==> r == Success("")
    ensures name.Some? ==> (r.Success? <==> '.' in name.value)
    ensures r.Failure? ==> r.error == StringIndexOutOfBounds(-1)
  {
    match name
    case None => Success("")
    case Some(s) =>
      var i := LastIndexOf(s, '.');
      if i < 0 then Failure(StringIndexOutOfBounds(i)) else Success(s[i..])
  }

  /** The extension is the suffix of the name from its last dot on, dot
      included. */
  lemma ExtensionIsLastDotSuffix(s: string)
    requires '.' in s
    ensures var e := Extension(Some(s)).value;
            && 0 < |e| <= |s|
            && s == s[..|s| - |e|] + e
            && e[0] == '.'
            && '.' !in e[1..]
  {
    var i := LastIndexOf(s, '.');
    assert s[i..][1..] == s[i + 1..];
    assert s == s[..i] + s[i..];
  }

  /** The extension of a name that has one, `""` otherwise. */
  function ExtOf(name: Option<string>): string {
    match Extension(name)
    case Success(e) => e
    case Failure(_) => ""
  }

  /** `Paths.get(uploadDir, subDir)`. Both callers pass a constant
      sub-directory name that is a single path segment. */
  function SaveDir(cfg: Config, subDir: string): Path {
    cfg.uploadDir + [subDir]
  }

  function SaveTarget(cfg: Config, subDir: string, uuid: string, ext: string): Path {
    Resolve(SaveDir(cfg, subDir), uuid + ext)
  }

  /** `saveAndConvertAudioFile` ignores the configured directory and always
      uses `uploads/<subDir>` below the working directory. */
  function ConvertDir(cfg: Config, subDir: string): Path {
    cfg.cwd + ["uploads", subDir]
  }

  function RawPath(cfg: Config, subDir: string, uuid: string): Path {
    Resolve(ConvertDir(cfg, subDir), uuid + ".webm")
  }

  function WavPath(cfg: Config, subDir: string, uuid: string): Path {
    Resolve(ConvertDir(cfg, subDir), uuid + ".wav")
  }

  /** `fs2` keeps every directory of `fs` and every file of `fs` outside
      `except`, with its contents. */
  predicate Keeps(fs: FileSystem, fs2: FileSystem, except: set<Path>) {
    && fs.dirs <= fs2.dirs
    && forall p | p in fs.files && p !in except :: p in fs2.files && fs2.files[p] == fs.files[p]
  }

  lemma KeepsTransitive(a: FileSystem, b: FileSystem, c: FileSystem, e1: set<Path>, e2: set<Path>)
    requires Keeps(a, b, e1) && Keeps(b, c, e2)
    ensures Keeps(a, c, e1 + e2)
  {
  }

  /** The relative path `subDir/name` both save operations return. */
  function Relative(subDir: string, name: string): string {
    subDir + "/" + name
  }

  /** `saveFile(file, subDir)`: ensure the directory, name the file
      `uuid + extension`, refuse a name with a NUL as `resolve` does, copy
      without replacing, return `subDir/name`. */
  function SaveFile(cfg: Config, fs: FileSystem, file: Upload, subDir: string, uuid: string): (r: Step<string>)
    ensures r.result.Success? ==>
              && Extension(file.originalFilename).Success?
              && var ext := ExtOf(file.originalFilename);
              && var target := SaveTarget(cfg, subDir, uuid, ext);
              && r.result.value == Relative(subDir, uuid + ext)
              && '\0' !in uuid + ext
              && !Exists(fs, target)
              && target in r.fs.files && r.fs.files[target] == file.content
              && r.fs.files.Keys == fs.files.Keys + {target}
    ensures r.result.Failure? ==> r.fs.files == fs.files
    ensures Keeps(fs, r.fs, {})
    ensures Valid(fs) ==> Valid(r.fs)
  {
    var dir := SaveDir(cfg, subDir);
    match EnsureDirectory(fs, dir)
    case Failure(e) => Step(fs, Failure(IOException(Fs(e))))
    case Success(fs1) =>
      assert Valid(fs) ==> Valid(fs1) by {
        if Valid(fs) && Exists(fs, dir) { assert fs1 == fs; }
      }
      match Extension(file.originalFilename)
      case Failure(e) => Step(fs1, Failure(e))
      case Success(ext) =>
        var unique := uuid + ext;
        if '\0' in unique then Step(fs1, Failure(InvalidPath(unique)))
        else
        match CopyNew(fs1, Resolve(dir, unique), file.content)
        case Failure(e) => Step(fs1, Failure(IOException(Fs(e))))
        case Success(fs2) => Step(fs2, Success(Relative(subDir, unique)))
  }

  /** The relative path `saveAndConvertAudioFile` returns. */
  function WavRelative(subDir: string, uuid: string): string {
    Relative(subDir, uuid + ".wav")
  }

  /** `ffmpeg -y -i <input> -acodec pcm_s16le <output>`: overwrite, read
      `input`, write 16-bit PCM to `output`. */
  function FfmpegCommand(input: string, output: string): (c: seq<string>)
    ensures |c| == 7 && c[0] == ProgramName && c[1] == "-y"
    ensures c[2] == "-i" && c[3] == input
    ensures c[4] == "-acodec" && c[5] == "pcm_s16le" && c[6] == output
  {
    [ProgramName, "-y", "-i", input, "-acodec", "pcm_s16le", output]
  }

  /** The effect of `ffmpeg -y` on its output file: written, replacing any
      file there, when the tool reports having written it and the path can
      hold a file. */
  function ToolWrite(fs: FileSystem, output: Path, wrote: Option<Bytes>): (r: FileSystem)
    ensures r.dirs == fs.dirs
    ensures forall p | p in fs.files && p != output :: p in r.files && r.files[p] == fs.files[p]
    ensures r.files.Keys <= fs.files.Keys + {output}
    ensures Valid(fs) ==> Valid(r)
    ensures Valid(fs) && wrote.Some? && output !in fs.dirs && output != [] && Parent(output) in fs.dirs ==>
              output in r.files && r.files[output] == wrote.value
  {
    if wrote.Some? && output !in fs.dirs && output != [] && Parent(output) in fs.dirs then
      fs.(files := fs.files[output := wrote.value])
    else fs
  }

  /** `saveAndConvertAudioFile(file, subDir)`: store the upload as
      `<uuid>.webm`, run `ffmpeg` to produce `<uuid>.wav` next to it, and on
      exit code 0 delete the `.webm` and return `subDir/<uuid>.wav`. */
  function SaveAndConvertAudioFile(cfg: Config, fs: FileSystem, file: Upload, subDir: string, uuid: string,
                                   ffmpeg: Transcoder): (r: Step<string>)
    ensures r.result.Success? ==>
              && r.result.value == WavRelative(subDir, uuid)
              && RawPath(cfg, subDir, uuid) !in r.fs.files
    ensures Keeps(fs, r.fs, {RawPath(cfg, subDir, uuid), WavPath(cfg, subDir, uuid)})
    ensures r.fs.files.Keys <= fs.files.Keys + {RawPath(cfg, subDir, uuid), WavPath(cfg, subDir, uuid)}
    ensures Valid(fs) ==> Valid(r.fs)
  {
    var dir := ConvertDir(cfg, subDir);
    match EnsureDirectory(fs, dir)
    case Failure(e) => Step(fs, Failure(IOException(Fs(e))))
    case Success(fs1) =>
      assert Valid(fs) ==> Valid(fs1) by {
        if Valid(fs) && Exists(fs, dir) { assert fs1 == fs; }
      }
      var input := RawPath(cfg, subDir, uuid);
      var output := WavPath(cfg, subDir, uuid);
      match TransferTo(fs1, input, file.content)
      case Failure(e) => Step(fs1, Failure(IOException(Fs(e))))
      case Success(fs2) =>
        match ffmpeg(FfmpegCommand(Render(input), Render(output)))
        case NotStarted(reason) => Step(fs2, Failure(IOException(CannotRunProgram(reason))))
        case Interrupted(wrote) => Step(ToolWrite(fs2, output, wrote), Failure(InterruptedException))
        case Exited(code, wrote) =>
          var fs3 := ToolWrite(fs2, output, wrote);
          if code != 0 then
            Step(fs3, Failure(IOException(ConversionFailed)))
          else
            match DeleteIfExists(fs3, input)
            case Failure(e) => Step(fs3, Failure(IOException(Fs(e))))
            case Success(fs4) => Step(fs4, Success(WavRelative(subDir, uuid)))
  }

  /** `processMedia(image, audio)`: save the image, save the audio, save and
      convert the audio again under a third UUID, then answer with the fixed
      image URL and the URL of the WAV file. The first failure ends the
      request; nothing written before it is removed. */
  function ProcessMedia(cfg: Config, fs: FileSystem, image: Upload, audio: Upload, ids: Uuids,
                        ffmpeg: Transcoder): (r: Step<ProcessedData>)
    ensures r.result.Success? ==>
              && r.result.value.imageUrl == ProcessedImageUrl
              && r.result.value.audioUrl == AudioUrlPrefix + WavRelative(AudiosDir, ids.wav)
              && RawPath(cfg, AudiosDir, ids.wav) !in r.fs.files
    ensures Keeps(fs, r.fs, {RawPath(cfg, AudiosDir, ids.wav), WavPath(cfg, AudiosDir, ids.wav)})
    ensures Valid(fs) ==> Valid(r.fs)
  {
    var s1 := SaveFile(cfg, fs, image, ImagesDir, ids.image);
    if s1.result.Failure? then Step(s1.fs, Failure(s1.result.error))
    else
      var s2 := SaveFile(cfg, s1.fs, audio, AudiosDir, ids.audio);
      if s2.result.Failure? then
        KeepsTransitive(fs, s1.fs, s2.fs, {}, {});
        Step(s2.fs, Failure(s2.result.error))
      else
        var s3 := SaveAndConvertAudioFile(cfg, s2.fs, audio, AudiosDir, ids.wav, ffmpeg);
        var except := {RawPath(cfg, AudiosDir, ids.wav), WavPath(cfg, AudiosDir, ids.wav)};
        KeepsTransitive(fs, s1.fs, s2.fs, {}, {});
        KeepsTransitive(fs, s2.fs, s3.fs, {}, except);
        assert {} + except == except;
        if s3.result.Failure? then Step(s3.fs, Failure(s3.result.error))
        else Step(s3.fs, Success(ProcessedData(ProcessedImageUrl, AudioUrlPrefix + s3.result.value)))
  }

  /* ---------------------------------------------------------------------
     Properties of the service
     --------------------------------------------------------------------- */

  /** Different files give different command lines: the tool is told
      exactly which file to read and which to write. */
  lemma FfmpegCommandInjective(a: string, b: string, c: string, d: string)
    ensures FfmpegCommand(a, b) == FfmpegCommand(c, d) <==> a == c && b == d
  {
    if FfmpegCommand(a, b) == FfmpegCommand(c, d) {
      assert FfmpegCommand(a, b)[3] == a && FfmpegCommand(c, d)[3] == c;
      assert FfmpegCommand(a, b)[6] == b && FfmpegCommand(c, d)[6] == d;
    }
  }

  /** The command `saveAndConvertAudioFile` hands to the process builder. */
  function ConversionCommand(cfg: Config, subDir: string, uuid: string): seq<string> {
    FfmpegCommand(Render(RawPath(cfg, subDir, uuid)), Render(WavPath(cfg, subDir, uuid)))
  }

  /** A client file name whose extension stays one valid path segment: a
      `null` name, or a name with a dot and neither a slash nor a NUL after
      its last dot. */
  predicate PlainName(n: Option<string>) {
    n.None? || ('.' in n.value && '/' !in n.value[LastIndexOf(n.value, '.')..]
                           && '\0' !in n.value[LastIndexOf(n.value, '.')..])
  }

  lemma UuidIsPlain(u: string)
    requires ValidUuid(u)
    ensures u != [] && '/' !in u && '.' !in u && '\0' !in u
  {
    forall i | 0 <= i < |u|
      ensures u[i] != '/' && u[i] != '.' && u[i] != '\0'
    {
      assert UuidChar(u[i]);
    }
  }

  lemma PlainNameExtension(n: Option<string>)
    requires PlainName(n)
    ensures Extension(n).Success? && ExtOf(n) == Extension(n).value && '/' !in ExtOf(n) && '\0' !in ExtOf(n)
  {
  }

  lemma FileNameSegment(uuid: string, ext: string)
    requires ValidUuid(uuid) && '/' !in ext
    ensures forall dir :: Resolve(dir, uuid + ext) == dir + [uuid + ext]
  {
    UuidIsPlain(uuid);
  }

  /** The two sub-directory names are single, distinct path segments. */
  lemma ConstantNames()
    ensures ImagesDir != [] && '/' !in ImagesDir
    ensures AudiosDir != [] && '/' !in AudiosDir
    ensures ImagesDir != AudiosDir
  {
    assert ImagesDir[0] != AudiosDir[0];
  }

  lemma ConstantDirs(cfg: Config)
    ensures SaveDir(cfg, ImagesDir) == cfg.uploadDir + [ImagesDir]
    ensures SaveDir(cfg, AudiosDir) == cfg.uploadDir + [AudiosDir]
    ensures ConvertDir(cfg, AudiosDir) == cfg.cwd + ["uploads", AudiosDir]
  {
    ConstantNames();
    assert cfg.cwd + ["uploads"] + [AudiosDir] == cfg.cwd + ["uploads", AudiosDir];
  }

  lemma RenderAppend(dir: Path, name: string)
    ensures Render(dir + [name]) == RenderSegments(dir) + "/" + name
  {
    assert (dir + [name])[..|dir|] == dir;
  }

  /** The raw upload and the converted file share the directory and the UUID;
      their names differ only in `.webm` against `.wav`, and neither depends
      on the client's file name. */
  lemma ConvertShape(cfg: Config, subDir: string, uuid: string)
    requires ValidUuid(uuid) && subDir != [] && '/' !in subDir
    ensures RawPath(cfg, subDir, uuid) == cfg.cwd + ["uploads", subDir, uuid + ".webm"]
    ensures WavPath(cfg, subDir, uuid) == cfg.cwd + ["uploads", subDir, uuid + ".wav"]
  {
    FileNameSegment(uuid, ".webm");
    FileNameSegment(uuid, ".wav");
    assert cfg.cwd + ["uploads"] + [subDir] + [uuid + ".webm"] == cfg.cwd + ["uploads", subDir, uuid + ".webm"];
    assert cfg.cwd + ["uploads"] + [subDir] + [uuid + ".wav"] == cfg.cwd + ["uploads", subDir, uuid + ".wav"];
  }

  /** The command line names the two files by their absolute paths, which
      end in the same UUID with `.webm` against `.wav`. */
  lemma ConvertPathsShareUuid(cfg: Config, subDir: string, uuid: string)
    requires ValidUuid(uuid) && subDir != [] && '/' !in subDir
    ensures var dir := cfg.cwd + ["uploads", subDir];
            && Render(RawPath(cfg, subDir, uuid)) == RenderSegments(dir) + "/" + (uuid + ".webm")
            && Render(WavPath(cfg, subDir, uuid)) == RenderSegments(dir) + "/" + (uuid + ".wav")
            && RawPath(cfg, subDir, uuid) != WavPath(cfg, subDir, uuid)
  {
    var dir := cfg.cwd + ["uploads", subDir];
    assert cfg.cwd + ["uploads"] + [subDir] == dir;
    FileNameSegment(uuid, ".webm");
    FileNameSegment(uuid, ".wav");
    RenderAppend(dir, uuid + ".webm");
    RenderAppend(dir, uuid + ".wav");
    assert |uuid + ".webm"| != |uuid + ".wav"|;
  }

  /** The converter reads nothing of the upload but its bytes: the client's
      file name, and so its extension, plays no part. */
  lemma ConvertIgnoresFilename(cfg: Config, fs: FileSystem, a: Upload, b: Upload, subDir: string, uuid: string,
                               ffmpeg: Transcoder)
    requires a.content == b.content
    ensures SaveAndConvertAudioFile(cfg, fs, a, subDir, uuid, ffmpeg) == SaveAndConvertAudioFile(cfg, fs, b, subDir, uuid, ffmpeg)
  {
    match EnsureDirectory(fs, ConvertDir(cfg, subDir))
    case Failure(_) =>
    case Success(fs1) =>
      match TransferTo(fs1, RawPath(cfg, subDir, uuid), a.content)
      case Failure(_) =>
      case Success(fs2) =>
  }

  /** The external tool is consulted exactly once, on the argument list
      `ffmpeg -y -i <raw> -acodec pcm_s16le <wav>` with both paths absolute:
      two tools that agree on that one list give the same outcome. */
  lemma ConvertRunsExactCommand(cfg: Config, fs: FileSystem, file: Upload, subDir: string, uuid: string,
                                f: Transcoder, g: Transcoder)
    requires var cmd := ["ffmpeg", "-y", "-i", Render(RawPath(cfg, subDir, uuid)),
                         "-acodec", "pcm_s16le", Render(WavPath(cfg, subDir, uuid))];
             f(cmd) == g(cmd)
    ensures SaveAndConvertAudioFile(cfg, fs, file, subDir, uuid, f) == SaveAndConvertAudioFile(cfg, fs, file, subDir, uuid, g)
  {
  }

  /** When the directory can be made and the target is free, `saveFile`
      writes exactly one new file, makes exactly the directory chain, and
      returns `subDir/uuid+extension`. */
  lemma SaveFileSucceeds(cfg: Config, fs: FileSystem, file: Upload, subDir: string, uuid: string)
    requires Valid(fs) && ValidUuid(uuid) && PlainName(file.originalFilename)
    requires !FileOnPath(fs, SaveDir(cfg, subDir))
    requires !Exists(fs, SaveTarget(cfg, subDir, uuid, ExtOf(file.originalFilename)))
    ensures var ext := ExtOf(file.originalFilename);
            var target := SaveTarget(cfg, subDir, uuid, ext);
            SaveFile(cfg, fs, file, subDir, uuid)
              == Step(FileSystem(fs.files[target := file.content], fs.dirs + Prefixes(SaveDir(cfg, subDir))),
                      Success(Relative(subDir, uuid + ext)))
  {
    var dir := SaveDir(cfg, subDir);
    PlainNameExtension(file.originalFilename);
    var ext := ExtOf(file.originalFilename);
    FileNameSegment(uuid, ext);
    var target := SaveTarget(cfg, subDir, uuid, ext);
    assert target == dir + [uuid + ext];
    var fs1 := EnsureDirectory(fs, dir).value;
    assert target !in fs1.dirs;
    assert Parent(target) == dir;
    assert dir in Prefixes(dir) by { assert dir[..|dir|] == dir; }
  }

  /** `Files.copy` without a replace option: a file or directory already at
      the target makes the save fail, and no file changes. */
  lemma SaveFileRefusesExistingTarget(cfg: Config, fs: FileSystem, file: Upload, subDir: string, uuid: string)
    requires Valid(fs) && !FileOnPath(fs, SaveDir(cfg, subDir))
    requires Extension(file.originalFilename).Success?
    requires '\0' !in uuid + ExtOf(file.originalFilename)
    requires Exists(fs, SaveTarget(cfg, subDir, uuid, ExtOf(file.originalFilename)))
    ensures var target := SaveTarget(cfg, subDir, uuid, ExtOf(file.originalFilename));
            var r := SaveFile(cfg, fs, file, subDir, uuid);
            r.result == Failure(IOException(Fs(FileAlreadyExists(target)))) && r.fs.files == fs.files
  {
    var target := SaveTarget(cfg, subDir, uuid, ExtOf(file.originalFilename));
    var fs1 := EnsureDirectory(fs, SaveDir(cfg, subDir)).value;
    assert Exists(fs1, target);
  }

  /** `Path.resolve` refuses a name with a NUL character: once the directory
      exists and the name has an extension, `saveFile` throws the unchecked
      `InvalidPathException` exactly when `uuid + extension` holds a NUL, and
      then it writes no file. */
  lemma SaveFileNulName(cfg: Config, fs: FileSystem, file: Upload, subDir: string, uuid: string)
    requires Valid(fs) && !FileOnPath(fs, SaveDir(cfg, subDir))
    requires Extension(file.originalFilename).Success?
    ensures var unique := uuid + ExtOf(file.originalFilename);
            var r := SaveFile(cfg, fs, file, subDir, uuid);
            && (r.result.Failure? && r.result.error.InvalidPath? <==> '\0' in unique)
            && ('\0' in unique ==> r.result.error == InvalidPath(unique) && r.fs.files == fs.files)
  {
  }

  /** A client name without a dot ends `saveFile` with the out-of-bounds
      `substring(-1)`, after the directory was already made; no file is
      written. */
  lemma SaveFileNoDot(cfg: Config, fs: FileSystem, file: Upload, subDir: string, uuid: string)
    requires Valid(fs) && !FileOnPath(fs, SaveDir(cfg, subDir))
    requires file.originalFilename.Some? && '.' !in file.originalFilename.value
    ensures var r := SaveFile(cfg, fs, file, subDir, uuid);
            && r.result == Failure(StringIndexOutOfBounds(-1))
            && r.fs.files == fs.files
            && SaveDir(cfg, subDir) in r.fs.dirs
  {
    var dir := SaveDir(cfg, subDir);
    assert dir in Prefixes(dir) by { assert dir[..|dir|] == dir; }
  }

  /** The conditions under which the conversion's directory step and raw
      write cannot fail. */
  predicate ConvertReady(cfg: Config, fs: FileSystem, subDir: string, uuid: string) {
    && Valid(fs) && ValidUuid(uuid) && subDir != [] && '/' !in subDir
    && !FileOnPath(fs, ConvertDir(cfg, subDir))
    && RawPath(cfg, subDir, uuid) !in fs.dirs
    && WavPath(cfg, subDir, uuid) !in fs.dirs
  }

  /** How the conversion ends, for each way the tool can behave: a tool that
      cannot start, an interrupted wait and a non-zero exit each fail and
      leave the raw `.webm` in place; exit code 0 deletes it and returns
      `subDir/<uuid>.wav`. Whatever the tool wrote stays, interrupted or not. */
  lemma ConvertOutcomes(cfg: Config, fs: FileSystem, file: Upload, subDir: string, uuid: string, ffmpeg: Transcoder)
    requires ConvertReady(cfg, fs, subDir, uuid)
    ensures var r := SaveAndConvertAudioFile(cfg, fs, file, subDir, uuid, ffmpeg);
            var raw := RawPath(cfg, subDir, uuid);
            var wav := WavPath(cfg, subDir, uuid);
            var rawKept := raw in r.fs.files && r.fs.files[raw] == file.content;
            match ffmpeg(ConversionCommand(cfg, subDir, uuid))
            case NotStarted(reason) => r.result == Failure(IOException(CannotRunProgram(reason))) && rawKept
            case Interrupted(wrote) =>
              && r.result == Failure(InterruptedException) && rawKept
              && (wrote.Some? ==> wav in r.fs.files && r.fs.files[wav] == wrote.value)
            case Exited(code, wrote) =>
              && (code != 0 ==> r.result == Failure(IOException(ConversionFailed)) && rawKept)
              && (code == 0 ==> r.result == Success(WavRelative(subDir, uuid)) && raw !in r.fs.files)
              && (wrote.Some? ==> wav in r.fs.files && r.fs.files[wav] == wrote.value)
  {
    ConvertPrepared(cfg, fs, file, subDir, uuid);
    var dir := ConvertDir(cfg, subDir);
    var fs2 := TransferTo(EnsureDirectory(fs, dir).value, RawPath(cfg, subDir, uuid), file.content).value;
    match ffmpeg(ConversionCommand(cfg, subDir, uuid))
    case NotStarted(_) =>
    case Interrupted(_) =>
    case Exited(_, _) =>
      DirectoryAncestors(fs2, dir);
  }

  /** The directory step and the raw write of a ready conversion succeed,
      leaving the upload at the raw path, in a directory beside the free
      `.wav` path. */
  lemma ConvertPrepared(cfg: Config, fs: FileSystem, file: Upload, subDir: string, uuid: string)
    requires ConvertReady(cfg, fs, subDir, uuid)
    ensures var dir := ConvertDir(cfg, subDir);
            var raw := RawPath(cfg, subDir, uuid);
            var wav := WavPath(cfg, subDir, uuid);
            && EnsureDirectory(fs, dir).Success?
            && TransferTo(EnsureDirectory(fs, dir).value, raw, file.content).Success?
            && var fs2 := TransferTo(EnsureDirectory(fs, dir).value, raw, file.content).value;
            && Valid(fs2) && dir in fs2.dirs
            && raw != wav && raw != [] && wav != [] && Parent(raw) == dir && Parent(wav) == dir
            && raw !in fs2.dirs && wav !in fs2.dirs
            && raw in fs2.files && fs2.files[raw] == file.content
  {
    var dir := ConvertDir(cfg, subDir);
    var raw := RawPath(cfg, subDir, uuid);
    var wav := WavPath(cfg, subDir, uuid);
    ConvertShape(cfg, subDir, uuid);
    ConvertPathsShareUuid(cfg, subDir, uuid);
    assert cfg.cwd + ["uploads"] + [subDir] == dir;
    var fs1 := EnsureDirectory(fs, dir).value;
    assert dir in fs1.dirs by { assert dir in Prefixes(dir) by { assert dir[..|dir|] == dir; } }
    assert Parent(raw) == dir && Parent(wav) == dir;
    assert raw !in fs1.dirs && wav !in fs1.dirs;
  }

  /** Summary of the above: a ready conversion succeeds exactly when the tool
      exits with code 0; then it answers `subDir/<uuid>.wav` and the raw
      `.webm` is gone, otherwise the raw `.webm` keeps the upload. */
  lemma ConvertSucceedsIffExitZero(cfg: Config, fs: FileSystem, file: Upload, subDir: string, uuid: string,
                                   ffmpeg: Transcoder)
    requires ConvertReady(cfg, fs, subDir, uuid)
    ensures var r := SaveAndConvertAudioFile(cfg, fs, file, subDir, uuid, ffmpeg);
            var run := ffmpeg(ConversionCommand(cfg, subDir, uuid));
            var raw := RawPath(cfg, subDir, uuid);
            && (r.result.Success? <==> run.Exited? && run.code == 0)
            && (r.result.Success? ==> r.result.value == WavRelative(subDir, uuid) && raw !in r.fs.files)
            && (r.result.Failure? ==> raw in r.fs.files && r.fs.files[raw] == file.content)
  {
    ConvertOutcomes(cfg, fs, file, subDir, uuid, ffmpeg);
  }

  /** A request's UUIDs are fresh: the client names keep their extensions in
      one segment, the directories to be made cross no file, and none of the
      four files the request writes exists or lies on a directory chain. The
      four files are written in the form `TargetShapes` proves they take. */
  predicate Fresh(cfg: Config, fs: FileSystem, image: Upload, audio: Upload, ids: Uuids) {
    && Valid(fs)
    && ValidUuid(ids.image) && ValidUuid(ids.audio) && ValidUuid(ids.wav) && ids.audio != ids.wav
    && PlainName(image.originalFilename) && PlainName(audio.originalFilename)
    && !FileOnPath(fs, SaveDir(cfg, ImagesDir))
    && !FileOnPath(fs, SaveDir(cfg, AudiosDir))
    && !FileOnPath(fs, ConvertDir(cfg, AudiosDir))
    && Unused(cfg, fs, cfg.uploadDir + [ImagesDir, ids.image + ExtOf(image.originalFilename)])
    && Unused(cfg, fs, cfg.uploadDir + [AudiosDir, ids.audio + ExtOf(audio.originalFilename)])
    && Unused(cfg, fs, cfg.cwd + ["uploads", AudiosDir, ids.wav + ".webm"])
    && Unused(cfg, fs, cfg.cwd + ["uploads", AudiosDir, ids.wav + ".wav"])
  }

  /** Nothing exists at `t`, and `t` is none of the directories the request
      makes: the two save directories, the conversion directory and their
      ancestors. */
  predicate Unused(cfg: Config, fs: FileSystem, t: Path) {
    && !Exists(fs, t)
    && !OnChain(t, SaveDir(cfg, ImagesDir))
    && !OnChain(t, SaveDir(cfg, AudiosDir))
    && !OnChain(t, ConvertDir(cfg, AudiosDir))
  }

  lemma UnusedOffChains(cfg: Config, fs: FileSystem, t: Path)
    requires Unused(cfg, fs, t)
    ensures t !in Prefixes(SaveDir(cfg, ImagesDir))
    ensures t !in Prefixes(SaveDir(cfg, AudiosDir))
    ensures t !in Prefixes(ConvertDir(cfg, AudiosDir))
  {
    PrefixesAreChain(t, SaveDir(cfg, ImagesDir));
    PrefixesAreChain(t, SaveDir(cfg, AudiosDir));
    PrefixesAreChain(t, ConvertDir(cfg, AudiosDir));
  }

  function ImageTarget(cfg: Config, image: Upload, ids: Uuids): Path {
    SaveTarget(cfg, ImagesDir, ids.image, ExtOf(image.originalFilename))
  }

  function AudioTarget(cfg: Config, audio: Upload, ids: Uuids): Path {
    SaveTarget(cfg, AudiosDir, ids.audio, ExtOf(audio.originalFilename))
  }

  lemma NoFileOnPathAfterWrite(fs: FileSystem, p: Path, b: Bytes, d: Path)
    requires !FileOnPath(fs, d) && p !in Prefixes(d)
    ensures !FileOnPath(fs.(files := fs.files[p := b]), d)
  {
    forall k | 0 <= k <= |d|
      ensures d[..k] != p
    {
      assert d[..k] in Prefixes(d);
    }
  }

  lemma SaveTargetShape(cfg: Config, subDir: string, uuid: string, ext: string)
    requires ValidUuid(uuid) && '/' !in ext && subDir != [] && '/' !in subDir
    ensures SaveTarget(cfg, subDir, uuid, ext) == cfg.uploadDir + [subDir, uuid + ext]
  {
    FileNameSegment(uuid, ext);
    assert cfg.uploadDir + [subDir] + [uuid + ext] == cfg.uploadDir + [subDir, uuid + ext];
  }

  lemma TargetShapes(cfg: Config, image: Upload, audio: Upload, ids: Uuids)
    requires ValidUuid(ids.image) && ValidUuid(ids.audio) && ValidUuid(ids.wav)
    requires PlainName(image.originalFilename) && PlainName(audio.originalFilename)
    ensures && ImageTarget(cfg, image, ids) == cfg.uploadDir + [ImagesDir, ids.image + ExtOf(image.originalFilename)]
            && AudioTarget(cfg, audio, ids) == cfg.uploadDir + [AudiosDir, ids.audio + ExtOf(audio.originalFilename)]
            && RawPath(cfg, AudiosDir, ids.wav) == cfg.cwd + ["uploads", AudiosDir, ids.wav + ".webm"]
            && WavPath(cfg, AudiosDir, ids.wav) == cfg.cwd + ["uploads", AudiosDir, ids.wav + ".wav"]
  {
    ConstantNames();
    PlainNameExtension(image.originalFilename);
    PlainNameExtension(audio.originalFilename);
    SaveTargetShape(cfg, ImagesDir, ids.image, ExtOf(image.originalFilename));
    SaveTargetShape(cfg, AudiosDir, ids.audio, ExtOf(audio.originalFilename));
    ConvertShape(cfg, AudiosDir, ids.wav);
  }

  /** Two paths ending in different directory names, or in names whose
      36-character UUID prefixes differ, are different. */
  lemma EndingsDiffer(a: Path, b: Path, x: string, y: string, u: string, v: string, e1: string, e2: string)
    requires x != y || u != v
    requires |u| == 36 && |v| == 36
    ensures a + [x, u + e1] != b + [y, v + e2]
  {
    var p, q := a + [x, u + e1], b + [y, v + e2];
    assert p[|a|] == x && p[|a| + 1] == u + e1;
    assert q[|b|] == y && q[|b| + 1] == v + e2;
    if |a| == |b| && x == y {
      assert (u + e1)[..36] == u && (v + e2)[..36] == v;
    }
  }

  lemma ShapesDistinct(up: Path, cwd: Path, images: string, audios: string, u1: string, u2: string, u3: string,
                       e1: string, e2: string)
    requires images != audios && |u1| == 36 && |u2| == 36 && |u3| == 36 && u2 != u3
    ensures var t1, t2 := up + [images, u1 + e1], up + [audios, u2 + e2];
            var raw, wav := cwd + ["uploads", audios, u3 + ".webm"], cwd + ["uploads", audios, u3 + ".wav"];
            t1 != t2 && t1 != raw && t1 != wav && t2 != raw && t2 != wav && raw != wav
  {
    var base := cwd + ["uploads"];
    assert cwd + ["uploads", audios, u3 + ".webm"] == base + [audios, u3 + ".webm"];
    assert cwd + ["uploads", audios, u3 + ".wav"] == base + [audios, u3 + ".wav"];
    EndingsDiffer(up, up, images, audios, u1, u2, e1, e2);
    EndingsDiffer(up, base, images, audios, u1, u3, e1, ".webm");
    EndingsDiffer(up, base, images, audios, u1, u3, e1, ".wav");
    EndingsDiffer(up, base, audios, audios, u2, u3, e2, ".webm");
    EndingsDiffer(up, base, audios, audios, u2, u3, e2, ".wav");
    assert (base + [audios, u3 + ".webm"])[|base| + 1] == u3 + ".webm";
    assert (base + [audios, u3 + ".wav"])[|base| + 1] == u3 + ".wav";
    assert |u3 + ".webm"| != |u3 + ".wav"|;
  }

  lemma TargetsDistinct(cfg: Config, image: Upload, audio: Upload, ids: Uuids)
    requires ValidUuid(ids.image) && ValidUuid(ids.audio) && ValidUuid(ids.wav) && ids.audio != ids.wav
    requires PlainName(image.originalFilename) && PlainName(audio.originalFilename)
    ensures var t1 := ImageTarget(cfg, image, ids);
            var t2 := AudioTarget(cfg, audio, ids);
            var raw := RawPath(cfg, AudiosDir, ids.wav);
            var wav := WavPath(cfg, AudiosDir, ids.wav);
            t1 != t2 && t1 != raw && t1 != wav && t2 != raw && t2 != wav && raw != wav
  {
    TargetShapes(cfg, image, audio, ids);
    ShapesDistinct(cfg.uploadDir, cfg.cwd, ImagesDir, AudiosDir, ids.image, ids.audio, ids.wav,
                   ExtOf(image.originalFilename), ExtOf(audio.originalFilename));
  }

  /** Writing the image and the audio copy of a fresh request and making
      both save directories keeps the conversion ready to run. */
  lemma StillReady(cfg: Config, fs: FileSystem, fs2: FileSystem, image: Upload, audio: Upload, ids: Uuids)
    requires Fresh(cfg, fs, image, audio, ids) && Valid(fs2)
    requires fs2.files == fs.files[ImageTarget(cfg, image, ids) := image.content][AudioTarget(cfg, audio, ids) := audio.content]
    requires fs2.dirs == fs.dirs + Prefixes(SaveDir(cfg, ImagesDir)) + Prefixes(SaveDir(cfg, AudiosDir))
    ensures ConvertReady(cfg, fs2, AudiosDir, ids.wav)
  {
    ConstantNames();
    var d := ConvertDir(cfg, AudiosDir);
    var t1, t2 := ImageTarget(cfg, image, ids), AudioTarget(cfg, audio, ids);
    TargetShapes(cfg, image, audio, ids);
    UnusedOffChains(cfg, fs, t1);
    UnusedOffChains(cfg, fs, t2);
    UnusedOffChains(cfg, fs, RawPath(cfg, AudiosDir, ids.wav));
    UnusedOffChains(cfg, fs, WavPath(cfg, AudiosDir, ids.wav));
    NoFileOnPathAfterWrite(fs, t1, image.content, d);
    NoFileOnPathAfterWrite(fs.(files := fs.files[t1 := image.content]), t2, audio.content, d);
    assert fs2.files == fs.(files := fs.files[t1 := image.content]).files[t2 := audio.content];
  }

  /** The image save of a fresh request writes the image and makes its
      directory chain. */
  lemma ImageSaved(cfg: Config, fs: FileSystem, image: Upload, audio: Upload, ids: Uuids)
    requires Fresh(cfg, fs, image, audio, ids)
    ensures SaveFile(cfg, fs, image, ImagesDir, ids.image).result.Success?
    ensures SaveFile(cfg, fs, image, ImagesDir, ids.image).fs
         == FileSystem(fs.files[ImageTarget(cfg, image, ids) := image.content], fs.dirs + Prefixes(SaveDir(cfg, ImagesDir)))
  {
    TargetShapes(cfg, image, audio, ids);
    SaveFileSucceeds(cfg, fs, image, ImagesDir, ids.image);
  }

  /** The audio save that follows it writes the audio copy and makes its
      directory chain. */
  lemma AudioSaved(cfg: Config, fs: FileSystem, image: Upload, audio: Upload, ids: Uuids)
    requires Fresh(cfg, fs, image, audio, ids)
    ensures var s1 := SaveFile(cfg, fs, image, ImagesDir, ids.image);
            && s1.result.Success?
            && s1.fs == FileSystem(fs.files[ImageTarget(cfg, image, ids) := image.content], fs.dirs + Prefixes(SaveDir(cfg, ImagesDir)))
            && SaveFile(cfg, s1.fs, audio, AudiosDir, ids.audio).result.Success?
            && SaveFile(cfg, s1.fs, audio, AudiosDir, ids.audio).fs
               == FileSystem(s1.fs.files[AudioTarget(cfg, audio, ids) := audio.content], s1.fs.dirs + Prefixes(SaveDir(cfg, AudiosDir)))
  {
    ImageSaved(cfg, fs, image, audio, ids);
    var fs1 := SaveFile(cfg, fs, image, ImagesDir, ids.image).fs;
    TargetShapes(cfg, image, audio, ids);
    TargetsDistinct(cfg, image, audio, ids);
    UnusedOffChains(cfg, fs, ImageTarget(cfg, image, ids));
    UnusedOffChains(cfg, fs, AudioTarget(cfg, audio, ids));
    NoFileOnPathAfterWrite(fs, ImageTarget(cfg, image, ids), image.content, SaveDir(cfg, AudiosDir));
    SaveFileSucceeds(cfg, fs1, audio, AudiosDir, ids.audio);
  }

  /** After both saves the conversion of a fresh request is ready to run. */
  lemma SavesLeaveConvertReady(cfg: Config, fs: FileSystem, image: Upload, audio: Upload, ids: Uuids)
    requires Fresh(cfg, fs, image, audio, ids)
    ensures var s1 := SaveFile(cfg, fs, image, ImagesDir, ids.image);
            ConvertReady(cfg, SaveFile(cfg, s1.fs, audio, AudiosDir, ids.audio).fs, AudiosDir, ids.wav)
  {
    AudioSaved(cfg, fs, image, audio, ids);
    var fs2 := SaveFile(cfg, SaveFile(cfg, fs, image, ImagesDir, ids.image).fs, audio, AudiosDir, ids.audio).fs;
    StillReady(cfg, fs, fs2, image, audio, ids);
  }

  /** After the two `saveFile` calls of a fresh request: both files written,
      both directory chains made, and the conversion ready to run. */
  lemma ProcessMediaSaves(cfg: Config, fs: FileSystem, image: Upload, audio: Upload, ids: Uuids)
    requires Fresh(cfg, fs, image, audio, ids)
    ensures var s1 := SaveFile(cfg, fs, image, ImagesDir, ids.image);
            var s2 := SaveFile(cfg, s1.fs, audio, AudiosDir, ids.audio);
            && s1.result.Success? && s2.result.Success?
            && ConvertReady(cfg, s2.fs, AudiosDir, ids.wav)
            && s2.fs.files == fs.files[ImageTarget(cfg, image, ids) := image.content][AudioTarget(cfg, audio, ids) := audio.content]
  {
    AudioSaved(cfg, fs, image, audio, ids);
    SavesLeaveConvertReady(cfg, fs, image, audio, ids);
  }

  /** For a fresh request both saves succeed, so the request's outcome is the
      conversion's, wrapped into the two URLs on success. */
  lemma ProcessMediaSteps(cfg: Config, fs: FileSystem, image: Upload, audio: Upload, ids: Uuids, ffmpeg: Transcoder)
    requires Fresh(cfg, fs, image, audio, ids)
    ensures var s1 := SaveFile(cfg, fs, image, ImagesDir, ids.image);
            var s2 := SaveFile(cfg, s1.fs, audio, AudiosDir, ids.audio);
            var s3 := SaveAndConvertAudioFile(cfg, s2.fs, audio, AudiosDir, ids.wav, ffmpeg);
            var r := ProcessMedia(cfg, fs, image, audio, ids, ffmpeg);
            && r.fs == s3.fs
            && (s3.result.Success? ==> r.result == Success(ProcessedData(ProcessedImageUrl, AudioUrlPrefix + s3.result.value)))
            && (s3.result.Failure? ==> r.result == Failure(s3.result.error))
  {
    ProcessMediaSaves(cfg, fs, image, audio, ids);
  }

  /** A fresh request succeeds exactly when the tool exits with code 0. On
      success the answer carries the fixed image URL and the URL of
      `audios/<uuid>.wav` and the `.webm` is gone; on failure nothing is
      rolled back and the raw `.webm` keeps the audio. */
  lemma ProcessMediaOutcome(cfg: Config, fs: FileSystem, image: Upload, audio: Upload, ids: Uuids, ffmpeg: Transcoder)
    requires Fresh(cfg, fs, image, audio, ids)
    ensures var r := ProcessMedia(cfg, fs, image, audio, ids, ffmpeg);
            var run := ffmpeg(ConversionCommand(cfg, AudiosDir, ids.wav));
            var raw := RawPath(cfg, AudiosDir, ids.wav);
            && (r.result.Success? <==> run.Exited? && run.code == 0)
            && (r.result.Success? ==>
                  && r.result.value == ProcessedData(ProcessedImageUrl, AudioUrlPrefix + WavRelative(AudiosDir, ids.wav))
                  && raw !in r.fs.files)
            && (r.result.Failure? ==> raw in r.fs.files && r.fs.files[raw] == audio.content)
  {
    SavesLeaveConvertReady(cfg, fs, image, audio, ids);
    ProcessMediaSteps(cfg, fs, image, audio, ids, ffmpeg);
    var s1 := SaveFile(cfg, fs, image, ImagesDir, ids.image);
    var s2 := SaveFile(cfg, s1.fs, audio, AudiosDir, ids.audio);
    ConvertSucceedsIffExitZero(cfg, s2.fs, audio, AudiosDir, ids.wav, ffmpeg);
  }

  /** The files of a fresh request after its two saves, before conversion. */
  lemma UploadsAfterSaves(cfg: Config, fs: FileSystem, image: Upload, audio: Upload, ids: Uuids)
    requires Fresh(cfg, fs, image, audio, ids)
    ensures var s1 := SaveFile(cfg, fs, image, ImagesDir, ids.image);
            var s2 := SaveFile(cfg, s1.fs, audio, AudiosDir, ids.audio);
            var t1 := ImageTarget(cfg, image, ids);
            var t2 := AudioTarget(cfg, audio, ids);
            && t1 in s2.fs.files && s2.fs.files[t1] == image.content
            && t2 in s2.fs.files && s2.fs.files[t2] == audio.content
  {
    ProcessMediaSaves(cfg, fs, image, audio, ids);
    TargetsDistinct(cfg, image, audio, ids);
  }

  lemma ProcessMediaFs(cfg: Config, fs: FileSystem, image: Upload, audio: Upload, ids: Uuids, ffmpeg: Transcoder)
    requires Fresh(cfg, fs, image, audio, ids)
    ensures var s1 := SaveFile(cfg, fs, image, ImagesDir, ids.image);
            var s2 := SaveFile(cfg, s1.fs, audio, AudiosDir, ids.audio);
            ProcessMedia(cfg, fs, image, audio, ids, ffmpeg).fs
              == SaveAndConvertAudioFile(cfg, s2.fs, audio, AudiosDir, ids.wav, ffmpeg).fs
  {
    ProcessMediaSteps(cfg, fs, image, audio, ids, ffmpeg);
  }

  /** A file outside the two conversion targets survives the conversion. */
  lemma ConversionKeeps(cfg: Config, fs: FileSystem, audio: Upload, uuid: string, ffmpeg: Transcoder, t: Path, b: Bytes)
    requires t in fs.files && fs.files[t] == b
    requires t != RawPath(cfg, AudiosDir, uuid) && t != WavPath(cfg, AudiosDir, uuid)
    ensures var s3 := SaveAndConvertAudioFile(cfg, fs, audio, AudiosDir, uuid, ffmpeg);
            t in s3.fs.files && s3.fs.files[t] == b
  {
  }

  /** Whatever the tool does, the image and the first audio copy of a fresh
      request stay on disk with their contents. */
  lemma ProcessMediaKeepsUploads(cfg: Config, fs: FileSystem, image: Upload, audio: Upload, ids: Uuids, ffmpeg: Transcoder)
    requires Fresh(cfg, fs, image, audio, ids)
    ensures var r := ProcessMedia(cfg, fs, image, audio, ids, ffmpeg);
            var t1 := ImageTarget(cfg, image, ids);
            var t2 := AudioTarget(cfg, audio, ids);
            && t1 in r.fs.files && r.fs.files[t1] == image.content
            && t2 in r.fs.files && r.fs.files[t2] == audio.content
  {
    var s1 := SaveFile(cfg, fs, image, ImagesDir, ids.image);
    var s2 := SaveFile(cfg, s1.fs, audio, AudiosDir, ids.audio);
    UploadsAfterSaves(cfg, fs, image, audio, ids);
    ProcessMediaFs(cfg, fs, image, audio, ids, ffmpeg);
    TargetsDistinct(cfg, image, audio, ids);
    ConversionKeeps(cfg, s2.fs, audio, ids.wav, ffmpeg, ImageTarget(cfg, image, ids), image.content);
    ConversionKeeps(cfg, s2.fs, audio, ids.wav, ffmpeg, AudioTarget(cfg, audio, ids), audio.content);
  }

  /** For a fresh request, a failure is exactly the conversion's failure:
      a tool that cannot start, an interrupted wait, or a non-zero exit. */
  lemma ProcessMediaFailureCause(cfg: Config, fs: FileSystem, image: Upload, audio: Upload, ids: Uuids, ffmpeg: Transcoder)
    requires Fresh(cfg, fs, image, audio, ids)
    ensures var r := ProcessMedia(cfg, fs, image, audio, ids, ffmpeg);
            match ffmpeg(ConversionCommand(cfg, AudiosDir, ids.wav))
            case NotStarted(reason) => r.result == Failure(IOException(CannotRunProgram(reason)))
            case Interrupted(_) => r.result == Failure(InterruptedException)
            case Exited(code, _) => code != 0 ==> r.result == Failure(IOException(ConversionFailed))
  {
    ProcessMediaSaves(cfg, fs, image, audio, ids);
    var s1 := SaveFile(cfg, fs, image, ImagesDir, ids.image);
    var s2 := SaveFile(cfg, s1.fs, audio, AudiosDir, ids.audio);
    var s3 := SaveAndConvertAudioFile(cfg, s2.fs, audio, AudiosDir, ids.wav, ffmpeg);
    ConvertOutcomes(cfg, s2.fs, audio, AudiosDir, ids.wav, ffmpeg);
    assert s3.result.Failure? ==> ProcessMedia(cfg, fs, image, audio, ids, ffmpeg).result == Failure(s3.result.error);
  }

  /** A dotless image name fails the request before any file is written;
      only the image directory chain has been made. */
  lemma ProcessMediaNoDot(cfg: Config, fs: FileSystem, image: Upload, audio: Upload, ids: Uuids, ffmpeg: Transcoder)
    requires Valid(fs) && !FileOnPath(fs, SaveDir(cfg, ImagesDir))
    requires image.originalFilename.Some? && '.' !in image.originalFilename.value
    ensures var r := ProcessMedia(cfg, fs, image, audio, ids, ffmpeg);
            && r.result == Failure(StringIndexOutOfBounds(-1))
            && r.fs.files == fs.files
            && r.fs.dirs == fs.dirs + Prefixes(SaveDir(cfg, ImagesDir))
  {
    SaveFileNoDot(cfg, fs, image, ImagesDir, ids.image);
  }

  /** An image name whose extension holds a NUL stops the request at the
      image's `resolve`, before any file is written. */
  lemma ProcessMediaNulName(cfg: Config, fs: FileSystem, image: Upload, audio: Upload, ids: Uuids, ffmpeg: Transcoder)
    requires Valid(fs) && !FileOnPath(fs, SaveDir(cfg, ImagesDir))
    requires Extension(image.originalFilename).Success? && '\0' in ExtOf(image.originalFilename)
    ensures var r := ProcessMedia(cfg, fs, image, audio, ids, ffmpeg);
            && r.result == Failure(InvalidPath(ids.image + ExtOf(image.originalFilename)))
            && r.fs.files == fs.files
  {
    var ext := ExtOf(image.originalFilename);
    assert '\0' in ids.image + ext by {
      var i :| 0 <= i < |ext| && ext[i] == '\0';
      assert (ids.image + ext)[|ids.image| + i] == '\0';
    }
    SaveFileNulName(cfg, fs, image, ImagesDir, ids.image);
  }

  /** The first failing step ends the request, for every input: a failed
      image save is the answer and nothing after it runs, a failed audio
      save likewise, and only when both saves succeed does the conversion
      run, its outcome becoming the request's. */
  lemma ProcessMediaStopsAtFirstFailure(cfg: Config, fs: FileSystem, image: Upload, audio: Upload, ids: Uuids,
                                        ffmpeg: Transcoder)
    ensures var r := ProcessMedia(cfg, fs, image, audio, ids, ffmpeg);
            var s1 := SaveFile(cfg, fs, image, ImagesDir, ids.image);
            var s2 := SaveFile(cfg, s1.fs, audio, AudiosDir, ids.audio);
            var s3 := SaveAndConvertAudioFile(cfg, s2.fs, audio, AudiosDir, ids.wav, ffmpeg);
            && (s1.result.Failure? ==> r == Step(s1.fs, Failure(s1.result.error)))
            && (s1.result.Success? && s2.result.Failure? ==> r == Step(s2.fs, Failure(s2.result.error)))
            && (s1.result.Success? && s2.result.Success? ==>
                  && r.fs == s3.fs
                  && (s3.result.Failure? ==> r.result == Failure(s3.result.error))
                  && (s3.result.Success? ==>
                        r.result == Success(ProcessedData(ProcessedImageUrl, AudioUrlPrefix + s3.result.value))))
  {
  }

  /** A dotless audio name stops the request at the audio save: at most the
      image is written, no `.webm` is stored and the tool is never
      consulted, so two tools give the same outcome. Once the image is
      saved and the audio directory can be made, the failure is the
      out-of-bounds exception. */
  lemma ProcessMediaAudioNoDot(cfg: Config, fs: FileSystem, image: Upload, audio: Upload, ids: Uuids,
                               f: Transcoder, g: Transcoder)
    requires audio.originalFilename.Some? && '.' !in audio.originalFilename.value
    ensures var r := ProcessMedia(cfg, fs, image, audio, ids, f);
            var s1 := SaveFile(cfg, fs, image, ImagesDir, ids.image);
            && r == ProcessMedia(cfg, fs, image, audio, ids, g)
            && r.result.Failure?
            && r.fs.files == s1.fs.files
            && r.fs.files.Keys <= fs.files.Keys + {SaveTarget(cfg, ImagesDir, ids.image, ExtOf(image.originalFilename))}
            && (s1.result.Success? && !FileOnPath(s1.fs, SaveDir(cfg, AudiosDir)) ==>
                  r.result == Failure(StringIndexOutOfBounds(-1)))
  {
    var s1 := SaveFile(cfg, fs, image, ImagesDir, ids.image);
    if s1.result.Success? {
      var s2 := SaveFile(cfg, s1.fs, audio, AudiosDir, ids.audio);
      assert Extension(audio.originalFilename).Failure?;
      assert s2.result.Failure?;
    }
  }

  /** With the default `app.upload.dir`, the audio copy of `saveFile` and the
      raw `.webm` land in the same directory. */
  lemma DefaultConfigSharesAudioDir(cwd: Path)
    ensures SaveDir(DefaultConfig(cwd), AudiosDir) == ConvertDir(DefaultConfig(cwd), AudiosDir)
  {
    ConstantDirs(DefaultConfig(cwd));
  }
}

=== FILE: results.dfy ===
/** Tagged values shared by the whole model: an optional value (Java's `null`,
    Python's missing key) and a success/failure result (a thrown exception). */
module Results {

  datatype Option<+T> = None | Some(value: T)

  datatype Result<+T, +E> = Success(value: T) | Failure(error: E)
}

=== FILE: server2vue.dfy ===
/** The web server's shared detection record, the two JSON endpoints over
    it and the configuration endpoint, and the bridge that connects the
    detection loop's data callback to the record. Locks, the clock and the
    MJPEG streams are left out: the time of an update is a parameter. */
module Server2Vue {
  import opened Results
  import opened MainApp

  /* ---------------------------------------------------------------------
     Shared detection record
     --------------------------------------------------------------------- */

  /** `alert_triggered` starts as the boolean `False` and is overwritten with
      whatever the callback passes, which is the integer alert level. */
  datatype AlertValue = AlertFlag(flag: bool) | AlertLevelValue(level: int)

  datatype DetectionData = DetectionData(
    detections: seq<Serialized>,
    vehicleCount: int,
    alertTriggered: AlertValue,
    fps: int,
    processingTime: real,
    lastUpdate: real)

  const InitialData := DetectionData([], 0, AlertFlag(false), 0, 0.0, 0.0)

  /** The count always describes the list it sits next to. */
  predicate Consistent(s: DetectionData) {
    s.vehicleCount == |s.detections|
  }

  /** `update_detection_data`: replaces everything the frame determines,
      with the count derived from the list, and stamps the time. */
  function UpdateDetectionData(s: DetectionData, detections: seq<Serialized>, alert: AlertValue, processingTime: real, now: real): (r: DetectionData)
    ensures Consistent(r)
    ensures r.detections == detections && r.alertTriggered == alert
    ensures r.processingTime == processingTime && r.lastUpdate == now
    ensures r.fps == s.fps
  {
    s.(detections := detections, vehicleCount := |detections|, alertTriggered := alert,
       processingTime := processingTime, lastUpdate := now)
  }

  /** The five fields `/api/detections` returns. */
  datatype Snapshot = Snapshot(
    detections: seq<Serialized>,
    vehicleCount: int,
    alertTriggered: AlertValue,
    processingTime: real,
    lastUpdate: real)

  /** `get_detections`: every field but `fps`. */
  function GetDetections(s: DetectionData): (r: Snapshot)
    ensures r.detections == s.detections && r.vehicleCount == s.vehicleCount
    ensures r.alertTriggered == s.alertTriggered
    ensures r.processingTime == s.processingTime && r.lastUpdate == s.lastUpdate
  {
    Snapshot(s.detections, s.vehicleCount, s.alertTriggered, s.processingTime, s.lastUpdate)
  }

  /** The endpoint never exposes `fps`. */
  lemma GetDetectionsIgnoresFps(s: DetectionData, fps: int)
    ensures GetDetections(s.(fps := fps)) == GetDetections(s)
  {
  }

  /** After an update, what the endpoint reports depends only on that
      update, not on the record before it. */
  lemma SnapshotAfterUpdate(s: DetectionData, detections: seq<Serialized>, alert: AlertValue, processingTime: real, now: real)
    ensures GetDetections(UpdateDetectionData(s, detections, alert, processingTime, now))
         == Snapshot(detections, |detections|, alert, processingTime, now)
  {
  }

  /** The last update wins, and repeating one changes nothing. */
  lemma UpdateOverwrites(s: DetectionData, d1: seq<Serialized>, a1: AlertValue, p1: real, t1: real,
                         d2: seq<Serialized>, a2: AlertValue, p2: real, t2: real)
    ensures UpdateDetectionData(UpdateDetectionData(s, d1, a1, p1, t1), d2, a2, p2, t2)
         == UpdateDetectionData(s, d2, a2, p2, t2)
  {
  }

  lemma UpdateIdempotent(s: DetectionData, d: seq<Serialized>, a: AlertValue, p: real, t: real)
    ensures UpdateDetectionData(UpdateDetectionData(s, d, a, p, t), d, a, p, t)
         == UpdateDetectionData(s, d, a, p, t)
  {
    UpdateOverwrites(s, d, a, p, t, d, a, p, t);
  }

  /** One call of the bridge: the frame's entries, alert level and
      processing time, and the clock reading. */
  datatype Delivery = Delivery(detections: seq<Serialized>, alert: int, processingTime: real, now: real)

  /** `bridge_callback`: forwards its arguments to `update_detection_data`;
      the integer alert level becomes `alert_triggered`. */
  function BridgeCallback(s: DetectionData, d: Delivery): (r: DetectionData)
    ensures Consistent(r) && r.vehicleCount == |d.detections|
    ensures r.detections == d.detections && r.alertTriggered == AlertLevelValue(d.alert)
    ensures r.processingTime == d.processingTime && r.lastUpdate == d.now
    ensures r.fps == s.fps
  {
    UpdateDetectionData(s, d.detections, AlertLevelValue(d.alert), d.processingTime, d.now)
  }

  /** The record after a run of deliveries, oldest first. */
  function Deliver(s: DetectionData, ds: seq<Delivery>): DetectionData
    decreases |ds|
  {
    if ds == [] then s else Deliver(BridgeCallback(s, ds[0]), ds[1..])
  }

  /** Every record the server can hold is consistent, `fps` is never written
      and so stays 0, and once anything was delivered the alert is an
      integer level, no longer the initial boolean. */
  lemma {:induction false} DeliverInvariant(s: DetectionData, ds: seq<Delivery>)
    requires Consistent(s)
    ensures Consistent(Deliver(s, ds))
    ensures Deliver(s, ds).fps == s.fps
    ensures ds != [] ==> Deliver(s, ds).alertTriggered == AlertLevelValue(ds[|ds| - 1].alert)
    ensures ds != [] ==> Deliver(s, ds).detections == ds[|ds| - 1].detections
    decreases |ds|
  {
    if ds != [] {
      var s' := BridgeCallback(s, ds[0]);
      DeliverInvariant(s', ds[1..]);
      if |ds| > 1 {
        assert ds[1..][|ds[1..]| - 1] == ds[|ds| - 1];
      }
    }
  }

  lemma ReachableRecords(ds: seq<Delivery>)
    ensures Consistent(Deliver(InitialData, ds))
    ensures Deliver(InitialData, ds).fps == 0
  {
    DeliverInvariant(InitialData, ds);
  }

  /* ---------------------------------------------------------------------
     From the detection loop to the endpoint
     --------------------------------------------------------------------- */

  /** The delivery a frame step hands the bridge, if it emits one. */
  function EmittedDelivery(e: Emission, now: real): Delivery {
    Delivery(e.detections, e.alertLevel, e.inferenceMs, now)
  }

  /** With the bridge registered, a frame whose detections serialise reaches
      `/api/detections` with the count the loop published, the alert level
      of that count, and the inference time in milliseconds; a frame that
      fails to serialise leaves the record as it was. */
  lemma FrameReachesEndpoint(s: DetectionData, detected: Detected, now: real)
    ensures var fr := FrameStep(detected, true);
            fr.emitted.Some? ==>
              var snap := GetDetections(BridgeCallback(s, EmittedDelivery(fr.emitted.value, now)));
              && snap.detections == fr.emitted.value.detections
              && snap.vehicleCount == fr.stats.vehicleCount
              && snap.alertTriggered == AlertLevelValue(AlertLevel(fr.stats.vehicleCount))
              && snap.processingTime == fr.stats.lastInferenceTime * 1000.0
              && snap.lastUpdate == now
    ensures FrameStep(detected, true).emitted.None? <==> SerializeAll(FrameDetections(detected)).Failure?
  {
  }

  /* ---------------------------------------------------------------------
     /api/config
     --------------------------------------------------------------------- */

  /** A parsed JSON request body. */
  datatype Json =
    | JNull
    | JBool(b: bool)
    | JNumber(n: real)
    | JString(s: string)
    | JArray(items: seq<Json>)
    | JObject(fields: map<string, Json>)

  /** Python's `float(v)` on a JSON value; the text-to-number parse of a
      string is a parameter (it yields `None` where Python raises
      `ValueError`). */
  function ToFloat(v: Json, parse: string -> Option<real>): (r: Result<real, PyError>)
    ensures v.JNumber? ==> r == Success(v.n)
    ensures v.JBool? ==> r == Success(if v.b then 1.0 else 0.0)
    ensures v.JNull? || v.JArray? || v.JObject? ==> r == Failure(TypeError)
    ensures v.JString? ==> r == (if parse(v.s).Some? then Success(parse(v.s).value) else Failure(ValueError))
  {
    match v
    case JNumber(n) => Success(n)
    case JBool(b) => Success(if b then 1.0 else 0.0)
    case JString(s) => if parse(s).Some? then Success(parse(s).value) else Failure(ValueError)
    case _ => Failure(TypeError)
  }

  /** Python's `key in s` on strings: `key` occurs somewhere in `s`. */
  predicate IsSubstring(key: string, s: string)
    decreases |s|
  {
    key <= s || (|s| > 0 && IsSubstring(key, s[1..]))
  }

  /** `key` occurs in `s` starting at position `i`. */
  predicate OccursAt(key: string, s: string, i: int) {
    0 <= i && i + |key| <= |s| && s[i..i + |key|] == key
  }

  lemma OccursShift(key: string, s: string, j: int)
    requires |s| > 0
    ensures OccursAt(key, s[1..], j) <==> 0 <= j && OccursAt(key, s, j + 1)
  {
    if 0 <= j && j + |key| <= |s[1..]| {
      assert s[1..][j..j + |key|] == s[j + 1..j + 1 + |key|];
    }
  }

  lemma OccursAtStart(key: string, s: string)
    ensures key <= s <==> OccursAt(key, s, 0)
  {
  }

  lemma {:induction false} SubstringHasPosition(key: string, s: string)
    requires IsSubstring(key, s)
    ensures exists i :: OccursAt(key, s, i)
    decreases |s|
  {
    OccursAtStart(key, s);
    if !(key <= s) {
      SubstringHasPosition(key, s[1..]);
      var j :| OccursAt(key, s[1..], j);
      OccursShift(key, s, j);
    }
  }

  lemma {:induction false} PositionIsSubstring(key: string, s: string, i: int)
    requires OccursAt(key, s, i)
    ensures IsSubstring(key, s)
    decreases |s|
  {
    OccursAtStart(key, s);
    if i != 0 {
      OccursShift(key, s, i - 1);
      PositionIsSubstring(key, s[1..], i - 1);
    }
  }

  /** The recursive test agrees with the definition by position, both
      ways. */
  lemma IsSubstringOccurs(key: string, s: string)
    ensures IsSubstring(key, s) <==> exists i :: OccursAt(key, s, i)
  {
    if IsSubstring(key, s) {
      SubstringHasPosition(key, s);
    }
    if exists i :: OccursAt(key, s, i) {
      var i :| OccursAt(key, s, i);
      PositionIsSubstring(key, s, i);
    }
  }

  /** `key in data`: a key of an object, an element of a list, a substring
      of a string; a number, boolean or `null` raises `TypeError`. */
  function Contains(data: Json, key: string): (r: Result<bool, PyError>)
    ensures r.Failure? <==> data.JNull? || data.JBool? || data.JNumber?
    ensures r.Failure? ==> r.error == TypeError
    ensures data.JObject? ==> r == Success(key in data.fields)
    ensures data.JArray? ==> r == Success(exists i | 0 <= i < |data.items| :: data.items[i] == JString(key))
    ensures data.JString? ==> r == Success(exists i :: OccursAt(key, data.s, i))
  {
    match data
    case JObject(m) => Success(key in m)
    case JArray(items) => Success(JString(key) in items)
    case JString(s) =>
      IsSubstringOccurs(key, s);
      Success(IsSubstring(key, s))
    case _ => Failure(TypeError)
  }

  /** `float(data[key])` under `if key in data`: no value when the key is
      absent; indexing a list or a string by a key raises `TypeError`. */
  function ReadSetting(data: Json, key: string, parse: string -> Option<real>): (r: Result<Option<real>, PyError>)
    ensures data.JObject? && key !in data.fields ==> r == Success(None)
    ensures data.JObject? && key in data.fields ==>
              match ToFloat(data.fields[key], parse)
              case Success(x) => r == Success(Some(x))
              case Failure(e) => r == Failure(e)
    ensures data.JNull? || data.JBool? || data.JNumber? ==> r == Failure(TypeError)
    ensures (data.JArray? || data.JString?) && r.Success? ==> r.value.None?
  {
    match Contains(data, key)
    case Failure(e) => Failure(e)
    case Success(present) =>
      if !present then Success(None)
      else if !data.JObject? then Failure(TypeError)
      else
        match ToFloat(data.fields[key], parse)
        case Failure(e) => Failure(e)
        case Success(x) => Success(Some(x))
  }

  const ConfidenceKey := "confidence"
  const AreaThresholdKey := "area_threshold"

  /** The POST answer: `{"status": "success"}`, or the exception Flask turns
      into a server error. */
  datatype PostReply = PostSucceeded | PostRaised(error: PyError)

  datatype PostResult = PostResult(settings: Settings, reply: PostReply)

  /** `config` on POST: the confidence is assigned before the area threshold
      is converted, so a bad area threshold leaves a new confidence behind;
      the target size is never written. */
  function ConfigPost(s: Settings, body: Json, parse: string -> Option<real>): (r: PostResult)
    ensures r.settings.targetWidth == s.targetWidth && r.settings.targetHeight == s.targetHeight
    ensures ReadSetting(body, ConfidenceKey, parse).Failure? ==>
              r == PostResult(s, PostRaised(ReadSetting(body, ConfidenceKey, parse).error))
    ensures ReadSetting(body, ConfidenceKey, parse) == Success(None) ==> r.settings.confThreshold == s.confThreshold
    ensures ReadSetting(body, ConfidenceKey, parse).Success? && ReadSetting(body, ConfidenceKey, parse).value.Some? ==>
              r.settings.confThreshold == ReadSetting(body, ConfidenceKey, parse).value.value
    ensures ReadSetting(body, AreaThresholdKey, parse).Success? && ReadSetting(body, AreaThresholdKey, parse).value.None? ==>
              r.settings.areaFracThreshold == s.areaFracThreshold
    ensures r.reply == PostSucceeded <==>
              ReadSetting(body, ConfidenceKey, parse).Success? && ReadSetting(body, AreaThresholdKey, parse).Success?
    ensures r.reply == PostSucceeded && ReadSetting(body, AreaThresholdKey, parse).value.Some? ==>
              r.settings.areaFracThreshold == ReadSetting(body, AreaThresholdKey, parse).value.value
    ensures r.reply.PostRaised? ==> r.settings.areaFracThreshold == s.areaFracThreshold
  {
    match ReadSetting(body, ConfidenceKey, parse)
    case Failure(e) => PostResult(s, PostRaised(e))
    case Success(conf) =>
      var s1 := if conf.Some? then s.(confThreshold := conf.value) else s;
      match ReadSetting(body, AreaThresholdKey, parse)
      case Failure(e) => PostResult(s1, PostRaised(e))
      case Success(area) =>
        PostResult(if area.Some? then s1.(areaFracThreshold := area.value) else s1, PostSucceeded)
  }

  /** Keys other than the two settings make no difference. */
  lemma ConfigPostIgnoresOtherKeys(s: Settings, m1: map<string, Json>, m2: map<string, Json>, parse: string -> Option<real>)
    requires ConfidenceKey in m1 <==> ConfidenceKey in m2
    requires ConfidenceKey in m1 ==> m1[ConfidenceKey] == m2[ConfidenceKey]
    requires AreaThresholdKey in m1 <==> AreaThresholdKey in m2
    requires AreaThresholdKey in m1 ==> m1[AreaThresholdKey] == m2[AreaThresholdKey]
    ensures ConfigPost(s, JObject(m1), parse) == ConfigPost(s, JObject(m2), parse)
  {
  }

  /** A body that is not an object never changes a setting: a scalar body
      raises, a list or string body either raises or succeeds untouched. */
  lemma ConfigPostNonObject(s: Settings, body: Json, parse: string -> Option<real>)
    requires !body.JObject?
    ensures ConfigPost(s, body, parse).settings == s
    ensures body.JNull? || body.JBool? || body.JNumber? ==> ConfigPost(s, body, parse).reply == PostRaised(TypeError)
  {
  }

  /** The GET answer. */
  datatype ConfigView = ConfigView(confidence: real, areaThreshold: real, targetWidth: int, targetHeight: int)

  /** `config` on GET: the four current values, read without change. */
  function ConfigGet(s: Settings): (r: ConfigView)
    ensures r.confidence == s.confThreshold && r.areaThreshold == s.areaFracThreshold
    ensures r.targetWidth == s.targetWidth && r.targetHeight == s.targetHeight
  {
    ConfigView(s.confThreshold, s.areaFracThreshold, s.targetWidth, s.targetHeight)
  }

  /** The settings after a run of POSTs, oldest first. */
  function PostAll(s: Settings, bodies: seq<Json>, parse: string -> Option<real>): Settings
    decreases |bodies|
  {
    if bodies == [] then s else PostAll(ConfigPost(s, bodies[0], parse).settings, bodies[1..], parse)
  }

  /** Whatever is posted, GET keeps reporting the 544 by 960 target. */
  lemma {:induction false} TargetNeverChanges(s: Settings, bodies: seq<Json>, parse: string -> Option<real>)
    ensures PostAll(s, bodies, parse).targetWidth == s.targetWidth
    ensures PostAll(s, bodies, parse).targetHeight == s.targetHeight
    decreases |bodies|
  {
    if bodies != [] {
      TargetNeverChanges(ConfigPost(s, bodies[0], parse).settings, bodies[1..], parse);
    }
  }

  lemma GetReportsInitialTarget(bodies: seq<Json>, parse: string -> Option<real>)
    ensures ConfigGet(PostAll(InitialSettings, bodies, parse)).targetWidth == 544
    ensures ConfigGet(PostAll(InitialSettings, bodies, parse)).targetHeight == 960
  {
    TargetNeverChanges(InitialSettings, bodies, parse);
  }

  /** A successful POST of both keys is what the next GET reports. */
  lemma GetAfterPost(s: Settings, conf: real, area: real, parse: string -> Option<real>)
    ensures var body := JObject(map[ConfidenceKey := JNumber(conf), AreaThresholdKey := JNumber(area)]);
            var r := ConfigPost(s, body, parse);
            r.reply == PostSucceeded
            && ConfigGet(r.settings) == ConfigView(conf, area, s.targetWidth, s.targetHeight)
  {
    var body := JObject(map[ConfidenceKey := JNumber(conf), AreaThresholdKey := JNumber(area)]);
    assert ConfidenceKey in body.fields && AreaThresholdKey in body.fields;
    assert body.fields[ConfidenceKey] == JNumber(conf);
    assert ConfidenceKey != AreaThresholdKey;
    assert body.fields[AreaThresholdKey] == JNumber(area);
  }

  /** A bad area threshold after a good confidence: the confidence sticks,
      the area threshold stays, and the request fails. */
  lemma ConfigPostPartialUpdate(s: Settings, conf: real, parse: string -> Option<real>)
    ensures var body := JObject(map[ConfidenceKey := JNumber(conf), AreaThresholdKey := JNull]);
            ConfigPost(s, body, parse) == PostResult(s.(confThreshold := conf), PostRaised(TypeError))
  {
    var body := JObject(map[ConfidenceKey := JNumber(conf), AreaThresholdKey := JNull]);
    assert ConfidenceKey != AreaThresholdKey;
    assert body.fields[ConfidenceKey] == JNumber(conf);
    assert body.fields[AreaThresholdKey] == JNull;
  }
}
